=== FILE: README.md ===
# Kaggle workflow scripts, modelled in Dafny

Three command-line scripts drive a Kaggle workflow:

- `push_notebook.py` publishes a local notebook as a Kaggle kernel.
- `download_notebooks.py` mirrors an owner's published notebooks into a local directory.
- `download_competition_data.py` fetches a competition's files and any extra input datasets.

All three share one configuration rule. A base settings file and a secrets file are overlaid, with secrets winning. Then a required-key set is checked, and the missing keys are reported in sorted order.

This project models the decision logic of the three scripts as pure Dafny functions over explicit inputs. Every call into the outside world becomes a parameter:
- the parsed contents of the two settings files;
- which target files are in the destination when a run starts;
- the pages the remote listing returns;
- whether the Kaggle client can be set up, and whether pulling a kernel reference succeeds;
- how a run of the `kaggle` tool ends: missing, or an exit status plus what it staged, and whether each staged archive opens.

Modules:

| module | file | what it holds |
|---|---|---|
| `Wrappers` | `wrappers.dfy` | `Option`, `Result`, and Python truthiness (`Truthy`, `Or`) for optional strings |
| `Text` | `text.dfy` | the `str` operations used: `lower`, `title`, `strip`, `split`, `split(sep, 1)`, `endswith`, and string order |
| `Config` | `config.dfy` | `parse_env_file`, the overlay, `ensure_credentials` / `ensure_requirements`, and the three entry points' layerings |
| `Slug` | `slug.dfy` | `normalize_slug`, `validate_slug`, `ensure_title_matches_slug` and the derived titles |
| `PushNotebook` | `push.dfy` | `build_metadata` and `main` of the push script |
| `Notebooks` | `notebooks.dfy` | `determine_extension`, `normalize_kernel_ref`, `fetch_notebooks`, `download_notebook`, the batch loop and `main` |
| `Competition` | `competition.dfy` | `parse_input_datasets`, the destinations, the two transfers, the dataset loop and `main` |

Representation choices:
- A required-key set is held as its strictly sorted listing. `Text.SortedListingUnique` shows that a strictly sorted sequence with the right elements is `sorted(...)` of them, so the missing-key list equals the sorted set difference.
- Both regular-expression rewrites in `normalize_slug` are one generic `ReplaceRuns(s, p)`: every maximal run of characters satisfying `p` becomes a single `-`.
- `str.strip()` and `str.strip("-")` are both the generic `Strip(s, p)`.
- Each `main` returns an outcome datatype, with one constructor per kind of outcome. Returns that end the run the same way share a constructor: `Pushed` covers both the successful and the failed push, and `CompetitionFailed` covers the three `except` returns around the competition download (download_competition_data.py:202-214). A separate function maps outcomes to the exit code.

Behaviour a reader may not expect:
- **Push settings files.** The push script treats the base settings file as optional and the secrets file as mandatory. The other two scripts do the opposite.
- **Dataset references.** A reference is accepted as soon as it contains a `/`. An empty owner (`/x`) and extra slashes (`a/b/c`) are accepted. For `a/b/c`, the default destination is `data/input/b/c`.
- **Dataset failures.** The first dataset that fails to download ends the run with exit code 1, and later datasets are not fetched. Failures are not recorded per item.
- **Private notebooks.** They are dropped from a listing whenever `--include-private` is off. There is no further check of who the caller is.
- **Shared targets.** The batch asks whether a notebook's target file exists afresh for every notebook. So when two listed notebooks share a target file, the second is skipped once the first has been downloaded, even if its own pull would fail.

## Model

| member | source | states |
|---|---|---|
| Text.TitleFrom | scripts/push_notebook.py:60 | `str.title()` keeps the length. It upper-cases a letter that starts the string or follows a non-letter, and lower-cases every other letter. |
| Text.TitleCase | scripts/push_notebook.py:60 | `str.title()` of the whole string: each character is upper-cased at the start or after a non-letter and lower-cased after a letter. |
| Text.LowerOfTitleCase | scripts/push_notebook.py:148 | Title-casing only changes the case of letters: lower-casing the title-cased string gives the lower-cased original. |
| Text.LowerSpec | scripts/push_notebook.py:41 | `lower()` keeps the length and leaves no upper-case letter. It changes only upper-case letters, and lower-casing twice is lower-casing once. |
| Text.TrimStart | scripts/push_notebook.py:42 | The leading part of `strip`: the result is a suffix of the input. Every dropped character is stripped, and the result does not start with a stripped character. |
| Text.TrimEnd | scripts/push_notebook.py:42 | The trailing part of `strip`: the result is a prefix of the input. Every dropped character is stripped, and the result does not end with a stripped character. |
| Text.StripSpaceTrimmed | scripts/download_competition_data.py:53 | `strip()` leaves no whitespace at either end, and it leaves a string with no whitespace at either end unchanged. |
| Text.Split | scripts/download_competition_data.py:52 | `split(",")` yields at least one part, no part holds the separator, and the parts joined by the separator give back the input. |
| Text.SplitJoin | scripts/download_competition_data.py:52 | Splitting the join of separator-free parts gives back the parts. |
| Text.SplitAfterPart | scripts/download_competition_data.py:52 | A separator-free prefix up to the first separator becomes the first part. |
| Text.SplitFirst | scripts/download_competition_data.py:57 | `split(":", 1)` finds nothing exactly when there is no separator. Otherwise the left half holds no separator, and left + separator + right is the input. |
| Text.SplitFirstOf | scripts/download_competition_data.py:57 | The first split of `a + sep + b` with a separator-free `a` is exactly `(a, b)`. |
| Text.EndsWithSpec | scripts/download_competition_data.py:94 | `s.endswith(x)`, the test behind the `*.zip` match, holds exactly when `s` is some string followed by `x`. |
| Text.LessTotal | scripts/download_competition_data.py:40 | Python's `<` on strings orders any two distinct strings one way or the other. |
| Text.LessTransitive | scripts/download_competition_data.py:40 | Python's `<` on strings is transitive, so with irreflexivity it is the strict total order `sorted` uses. |
| Text.SortedListingUnique | scripts/download_competition_data.py:40 | Two strictly ascending listings with the same elements are equal, so a strictly ascending listing of the missing keys is `sorted(missing)`. |
| Config.Values | scripts/download_notebooks.py:32 | A key is kept exactly when the file exists and gives the key a value, and it keeps that value. |
| Config.ParseEnvFile | scripts/download_competition_data.py:22-34 | A missing file fails with ConfigMissing exactly when the file is required. A present file with no valued entry fails with ConfigEmpty exactly when required. No other failure occurs. On success, the entries are exactly the file's entries that have a value. |
| Config.Overlay | scripts/download_competition_data.py:176 | The merged keys are the union of both layers. A secret wins over a base value, and other base values are kept. |
| Config.MissingKeys | scripts/download_competition_data.py:38 | A key is reported exactly when it is required and absent. The report is strictly ascending when the required listing is. |
| Config.EnsureRequired | scripts/download_competition_data.py:37-45 | Succeeds with the environment unchanged exactly when every required key is present. Otherwise it reports a non-empty, sorted list of exactly the missing keys. |
| Config.Resolve | scripts/download_competition_data.py:173-180 | A base-file error is reported before a secrets-file error. Success holds exactly when both files are readable and every required key is valued in one of them. The result is the overlay with secrets winning. A failure with both files readable lists exactly the missing keys, sorted. |
| Config.RequiredKeysSorted | scripts/download_competition_data.py:19 | The listings of the two required-key sets are strictly ascending, so they are their `sorted(...)` order. |
| Config.PushConfig | scripts/push_notebook.py:125-133 | Push requires the secrets file and treats the base file as optional. It succeeds exactly when the secrets file has a valued entry and both credential keys are valued in some file. |
| Config.NotebooksConfig | scripts/download_notebooks.py:174-182 | The notebook downloader requires the base file and treats the secrets file as optional. It succeeds exactly when the base file has a valued entry and both credential keys are valued in some file. |
| Config.CompetitionConfig | scripts/download_competition_data.py:171-180 | The competition downloader requires the base file. It also requires `KAGGLE_COMPETITION`, and the merged result holds all three required keys. |
| Config.MissingKeyExample | scripts/download_notebooks.py:38-46 | A base file with only the username and an empty secrets file fail, listing exactly `KAGGLE_KEY`. |
| Slug.ReplaceRuns | scripts/push_notebook.py:41-42 | `re.sub` of a run pattern by `-`: the output is empty exactly when the input is, and it starts with `-` when the input starts inside a run and with the input's first character otherwise. |
| Slug.ReplaceRunsAlphabet | scripts/push_notebook.py:41 | After replacing runs, every character is `-` or a kept character, and no two dashes are adjacent. |
| Slug.ReplaceRunsFrom | scripts/push_notebook.py:41 | Every output character is a dash or a character of the input. |
| Slug.ReplaceRunsKeeps | scripts/push_notebook.py:41 | Every kept input character survives into the output. |
| Slug.ReplaceRunsFixpoint | scripts/push_notebook.py:42 | Replacing runs of dashes changes nothing when no two dashes are adjacent. |
| Slug.Cleaned | scripts/push_notebook.py:41 | The first rewrite yields only `[a-z0-9-]` with no doubled dash. |
| Slug.StripShaped | scripts/push_notebook.py:42 | Stripping dashes from such a string leaves no dash at either end. |
| Slug.Normalize | scripts/push_notebook.py:40-42 | A normalised slug uses only `[a-z0-9-]`, with no doubled, leading or trailing dash. |
| Slug.NormalizeFixpoint | scripts/push_notebook.py:40-42 | A string is its own normalisation exactly when it has that shape. |
| Slug.NormalizeIdempotent | scripts/push_notebook.py:40-42 | Normalising twice is normalising once. |
| Slug.NormalizeEmpty | scripts/push_notebook.py:46-48 | The normalisation is empty exactly when no character lower-cases to a letter `a`–`z` or a digit. |
| Slug.ReplaceRunsCongruent | scripts/push_notebook.py:41 | Run replacement depends only on which characters are replaced and on the characters kept. |
| Slug.NormalizeReplaceSeparator | scripts/push_notebook.py:60 | Replacing one non-slug character by another (`-` by space, `_` by space) does not change the normalisation. |
| Slug.NormalizeTitleCase | scripts/push_notebook.py:60 | Title-casing does not change the normalisation. |
| Slug.ValidateSlug | scripts/push_notebook.py:45-54 | A slug is accepted, unchanged, exactly when it is non-empty and normalised. It is rejected for lacking alphanumerics exactly when nothing survives normalisation. Otherwise the suggestion is its normalisation, which differs from it. |
| Slug.SuggestionAccepted | scripts/push_notebook.py:49-53 | A suggested slug is itself accepted. |
| Slug.TitleWithSpaces | scripts/push_notebook.py:60 | `s.replace(c, " ").title()`, the fallback title of a slug (line 60, `c` is `-`) and the default title of a stem (line 148, `c` is `_`). Each character follows the `str.title()` rule on the text with spaces for `c`: upper case at the start or after a non-letter, lower case after a letter. The result keeps the length and equals that text up to case. |
| Slug.FallbackTitleMatches | scripts/push_notebook.py:60 | The fallback title of a slug already in canonical shape normalises back to that slug. |
| Slug.DefaultTitleNormalizes | scripts/push_notebook.py:148 | The title derived from a notebook stem normalises like the stem. |
| Slug.EnsureTitleMatchesSlug | scripts/push_notebook.py:57-65 | A title that already normalises to the slug is kept, and any other title is replaced by the fallback. For a valid slug, the result always normalises to the slug. |
| Slug.ValidateSlugAcceptsExample | scripts/push_notebook.py:45-54 | `my-slug` is accepted. |
| Slug.ValidateSlugRejectsExample | scripts/push_notebook.py:45-54 | `My Slug` is rejected with the suggestion `my-slug`. |
| PushNotebook.BoolText | scripts/push_notebook.py:84-87 | `str(b).lower()` is `"true"` or `"false"`, and it is `"true"` exactly for true. |
| PushNotebook.BuildMetadata | scripts/push_notebook.py:68-98 | The id is `username/slug` for any username. When the username has no `/`, the id splits at its first `/` into username and slug. The three flags follow their inputs. TPU is off, and language, kernel type and docker image are fixed. The link lists are empty. The competition list holds the competition exactly when one is given. |
| PushNotebook.RequestedTitle | scripts/push_notebook.py:148 | A non-empty `--title` is used as given. Otherwise the title is the `str.title()` of the stem with spaces for underscores. |
| PushNotebook.PushExitCode | scripts/push_notebook.py:131-185 | A pushed notebook exits with the push command's status. Every rejection exits with 1. |
| PushNotebook.PushMain | scripts/push_notebook.py:125-185 | Outcomes in order: config error, then missing notebook, then slug error, then push. A rejected config carries the error the settings loader reported, and a rejected slug the error `validate_slug` reported. When pushed, the metadata is `build_metadata` of the username, the slug, the settled title, the notebook's file name, the competition from the argument or else the config, and the three flags as given. The title is `ensure_title_matches_slug` of the requested title, which is `--title` or else the title-cased stem. The id is `username/slug`, the title normalises to the slug, and the exit code is the push command's status. Every other outcome exits 1. |
| PushNotebook.DefaultTitleKept | scripts/push_notebook.py:148-149 | With no title given and a stem that normalises to the slug, the derived title is kept. |
| Notebooks.DetermineExtension | scripts/download_notebooks.py:111-113 | The extension is `.irnb` exactly for language `r` and `.ijlnb` exactly for `julia`, in any letter case. Every other language, including none, gets `.ipynb`. |
| Notebooks.TargetName | scripts/download_notebooks.py:232-234 | The target file name is the kernel's slug followed by `determine_extension(kernel)`. |
| Notebooks.TargetNameByLanguage | scripts/download_notebooks.py:232-234 | The target's extension follows the kernel's language: `.irnb` for R, `.ijlnb` for Julia, compared case-insensitively, and `.ipynb` otherwise. |
| Notebooks.NormalizeKernelRef | scripts/download_notebooks.py:67-73 | A blank reference is rejected. A qualified one is returned stripped. A bare slug becomes `owner/slug` for any owner. When the owner has no `/`, the result splits back into owner and slug. |
| Notebooks.Visible | scripts/download_notebooks.py:100-105 | A page keeps exactly its non-null items, minus the private ones unless private items are included. |
| Notebooks.VisibleAppend | scripts/download_notebooks.py:100-105 | Filtering a concatenation is concatenating the filtered parts, so kept items stay in page order. |
| Notebooks.VisibleOne | scripts/download_notebooks.py:100-105 | A single item is kept exactly when it is present and, unless private items are included, public. |
| Notebooks.FetchNotebooks | scripts/download_notebooks.py:76-108 | With private items excluded, no listed notebook is private. |
| Notebooks.FirstStop | scripts/download_notebooks.py:84-98 | Locates the first page that raises or is empty. Every page before it returned items. |
| Notebooks.FetchNotebooksSpec | scripts/download_notebooks.py:82-108 | The listing fails exactly when a page raises before the first empty page. Otherwise it is the kept items of the pages before that empty page, in page order. |
| Notebooks.LaterPagesIgnored | scripts/download_notebooks.py:97-98 | Pages after the one that ends the listing do not affect the result. |
| Notebooks.DownloadNotebook | scripts/download_notebooks.py:116-128 | An existing target without overwrite is refused. Otherwise a failed pull is reported for the kernel's reference, and a successful pull returns the target name `slug + extension`. |
| Notebooks.Decide | scripts/download_notebooks.py:232-246 | Against the files present when its turn comes, a notebook is skipped exactly when its target exists without overwrite. It fails exactly when it is not skipped and its pull fails. A failure always comes from the pull, never from the existence check inside the download. |
| Notebooks.RunBatch | scripts/download_notebooks.py:227-246 | Every listed notebook is counted once: downloaded, skipped or failed. |
| Notebooks.RunBatchCounts | scripts/download_notebooks.py:227-253 | The downloaded and skipped counters count the notebooks with those decisions. |
| Notebooks.RunBatchFailures | scripts/download_notebooks.py:227-253 | The failed list holds the references of the failing notebooks, in listing order. |
| Notebooks.RunBatchSplits | scripts/download_notebooks.py:232-246 | The summary of a listing is the sum of the summaries of its parts, the second part starting from the files the first part left behind. A failure never stops or undoes other items. |
| Notebooks.DecisionsSplit | scripts/download_notebooks.py:232-246 | The decisions of a listing are those of its first part followed by those of the rest, taken against the files the first part left behind. |
| Notebooks.DecisionAt | scripts/download_notebooks.py:232-235 | Each notebook's decision is taken against the files at the start plus those written by the earlier notebooks of the run. |
| Notebooks.PresentHas | scripts/download_notebooks.py:232-246 | After a stretch of the listing, a file is present exactly when it was present before or a notebook of the stretch was downloaded to it. |
| Notebooks.SkippedExactly | scripts/download_notebooks.py:232-237 | Without overwrite, a notebook is skipped exactly when its target was present at the start or an earlier notebook of the run was downloaded to it. With overwrite, nothing is skipped. |
| Notebooks.OverwriteSkipsNothing | scripts/download_notebooks.py:235 | With overwrite on, nothing is skipped. |
| Notebooks.FailedAreFailures | scripts/download_notebooks.py:239-244 | Every failed reference belongs to a listed notebook whose pull failed and whose target was not present when its turn came, or overwrite was on. |
| Notebooks.BatchLoop | scripts/download_notebooks.py:227-246 | The in-place loop over the listing, which tracks the files it writes, ends with the counters and failed list of the batch summary. |
| Notebooks.LoopBody | scripts/download_notebooks.py:232-246 | One pass records the notebook's decision at the end of the summary, and a download adds its target to the files present. |
| Notebooks.BatchExitCode | scripts/download_notebooks.py:255-257 | A finished batch exits with 1 exactly when some notebook failed, and with 0 otherwise. |
| Notebooks.ReconciliationExample | scripts/download_notebooks.py:232-257 | Three notebooks with different targets: the second is already present and the third fails to pull. The result is one download, one skip, only the third reference failed, and exit code 1. |
| Notebooks.SharedTargetExample | scripts/download_notebooks.py:232-257 | Two notebooks with the same target, such as one kernel listed twice: the first is downloaded and the second skipped, whatever its own pull would do, and the run exits with 0. |
| Notebooks.LanguageTargetExample | scripts/download_notebooks.py:232-235 | An R kernel whose `<slug>.irnb` exists is skipped by the batch. The single-kernel path (lines 202-208) checks only `<slug>.ipynb`, so it pulls the same kernel. |
| Notebooks.ResolveOwner | scripts/download_notebooks.py:184 | The owner is the `--owner` argument if non-empty. Otherwise it is `KAGGLE_NOTEBOOK_OWNER` if non-empty, and otherwise the username. |
| Notebooks.SlugOf | scripts/download_notebooks.py:197 | A qualified reference is an owner without `/`, then `/`, then the slug. |
| Notebooks.SingleKernel | scripts/download_notebooks.py:194-215 | A blank reference is rejected. Otherwise the kernel is skipped exactly when `<slug>.ipynb` exists without overwrite, whatever its language, and downloaded exactly when not skipped and the pull succeeds. |
| Notebooks.NotebooksMain | scripts/download_notebooks.py:174-183 | A configuration error comes first and exits with 1. Otherwise the run proceeds with the resolved configuration. |
| Notebooks.NotebooksRun | scripts/download_notebooks.py:184-257 | A client that cannot be set up ends the run. Otherwise a non-empty `--kernel` takes the single-kernel path, and without it the listing may abort, may be empty, or is non-empty. A non-empty listing is processed as the batch of exactly the listed notebooks, against the files present and the pull outcomes. |
| Notebooks.NotebooksExitCode | scripts/download_notebooks.py:180-257 | The exit code is 0 or 1. It is 1 exactly for a config error, a client that cannot be set up, a rejected or failed single kernel, an aborted listing, or a batch with a failure. |
| Competition.ParseEntry | scripts/download_competition_data.py:53-62 | An entry gets a destination exactly when its stripped text holds `:`, and the reference holds no `:`. |
| Competition.ParseEntryShape | scripts/download_competition_data.py:53-62 | Both halves of a parsed entry are stripped. |
| Competition.ParseEntries | scripts/download_competition_data.py:52-68 | Every accepted reference contains `/`. |
| Competition.FirstUnqualified | scripts/download_competition_data.py:63-66 | Locates the first request without `/`. It is past the end exactly when all requests are qualified. |
| Competition.ParseEntriesSpec | scripts/download_competition_data.py:51-68 | Parsing yields the requests of the non-blank entries in order, unless one lacks `/`. In that case it reports the first such reference. |
| Competition.ParseInputDatasets | scripts/download_competition_data.py:48-68 | An unset or empty value means no datasets. Any accepted request is qualified. |
| Competition.ParseFormatRoundTrip | scripts/download_competition_data.py:48-68 | Writing qualified requests as `ref[:dest]`, joined by commas, and parsing them back gives the same requests. |
| Competition.BlankEntriesSkipped | scripts/download_competition_data.py:53-55 | A blank entry anywhere in the list changes nothing. |
| Competition.TwoDatasetsExample | scripts/download_competition_data.py:52-67 | `alice/cats, bob/dogs:out/dogs` yields `alice/cats` with no destination, then `bob/dogs` with destination `out/dogs`. |
| Competition.RejectsUnqualified | scripts/download_competition_data.py:63-66 | A lone reference without `/` is rejected, and the error names it. |
| Competition.RejectsUnqualifiedExample | scripts/download_competition_data.py:63-66 | `no-slash-here` is rejected, naming itself. |
| Competition.AcceptsEmptyOwnerExample | scripts/download_competition_data.py:63 | `/x` is accepted, because only the presence of `/` is checked. |
| Competition.CompetitionDestination | scripts/download_competition_data.py:189-193 | The destination is the argument if non-empty. Otherwise it is `KAGGLE_DOWNLOAD_DIR` if non-empty, and otherwise `data/input/<competition>`. |
| Competition.DatasetDestination | scripts/download_competition_data.py:217-218 | A custom destination is always used when one was given. |
| Competition.DefaultDatasetDestination | scripts/download_competition_data.py:217-218 | Without a custom destination, `owner/rest` goes to `data/input/rest`, even when `rest` holds more slashes. |
| Competition.Zips | scripts/download_competition_data.py:94 | The staged archives are exactly the staged entries whose names end in `.zip`. |
| Competition.ZipsAppend | scripts/download_competition_data.py:94 | The archive filter distributes over concatenation, so archives keep their staging order and multiplicity. |
| Competition.ZipsOne | scripts/download_competition_data.py:94 | A single staged entry is kept exactly when it matches `*.zip`. |
| Competition.IsZipName | scripts/download_competition_data.py:94 | An entry matches `*.zip` exactly when its name is some stem followed by `.zip`. |
| Competition.ExtractAll | scripts/download_competition_data.py:107-113 | Extraction succeeds exactly when every archive opens. Otherwise it reports the first bad archive and the archives extracted before it. |
| Competition.FetchCompetition | scripts/download_competition_data.py:71-113 | The outcomes are: a missing tool; the tool's non-zero status; nothing staged; loose files copied exactly when no archive was staged; or, when archives were staged, the result of extracting exactly those archives. |
| Competition.FetchDataset | scripts/download_competition_data.py:116-148 | As for the competition, except that no archive means nothing downloaded, even when loose files were staged. A failing tool's status is carried in the failure. When archives were staged, the result is that of extracting exactly those archives. |
| Competition.TransfersDifferOnlyOnLooseFiles | scripts/download_competition_data.py:94-105 | The two transfers differ exactly when the tool succeeded and staged only non-archive entries. |
| Competition.FirstFailedDataset | scripts/download_competition_data.py:216-223 | Locates the first dataset whose fetch fails. Every dataset before it succeeded. |
| Competition.LaterDatasetsNotFetched | scripts/download_competition_data.py:219-223 | Datasets after the first failing one do not affect where the loop stops. |
| Competition.FetchDatasets | scripts/download_competition_data.py:216-223 | The loop stops at the first failing dataset. Before that point it has used each dataset's own destination, in order. |
| Competition.DatasetStep | scripts/download_competition_data.py:217-223 | One iteration: a failing fetch ends the run at this dataset, which is then the first failure. Otherwise this dataset's destination is appended after those of the earlier datasets, all of which were fetched. |
| Competition.CompetitionMain | scripts/download_competition_data.py:171-180 | A configuration error comes first. Otherwise the run proceeds with the resolved configuration. |
| Competition.CompetitionRun | scripts/download_competition_data.py:182-229 | After the configuration, the order is: dataset-list error, then the competition transfer, then the datasets in order, stopping at the first dataset that fails. The destination follows the precedence rule. The exit code is 0 exactly when everything completed. |
| Competition.CompetitionExitCode | scripts/download_competition_data.py:180-229 | A completed run exits with 0. A failing tool passes its own status through. Every other error exits with 1. |

## Left out

- Reading the settings files (`dotenv_values`) is not modelled. A file is given as its parsed entries: a key maps to a value, or to nothing for a key without a value.
- The environment variables the scripts export are not modelled: they only hand the credentials to the Kaggle client. Whether `configure_api` can import the client is the `apiReady` parameter; when it cannot, the script returns 1.
- Directory creation, temporary staging directories, copying and the JSON file written for the push are file I/O and are not modelled. So are `print` and argument parsing.
- Exceptions the scripts do not catch have no outcome in the model; each would end the process with a traceback. These are errors from `mkdir`, from copying loose competition files, and from API authentication.
- The push script's catch-all for a failed notebook copy or metadata write is left out, since those are file I/O. The push command's exit status is a parameter.
- `--page-size` only changes how the service splits the listing into pages. The listing is given as the pages themselves, and pages past the end of that sequence are empty.
- The destination directory is the set of target names in it. A run starts from the names already there, and each successful pull adds its notebook's `<slug><extension>`, on the assumption that `kernels_pull` writes exactly that file. Other files a pull writes, anything a failed pull leaves behind, and files created by another process during the run are not modelled.
- Path normalisation is not modelled. `Path("")` becomes `.`, and a custom dataset destination is a `Path` object and therefore always truthy. The model uses a given destination as written, even when it is empty.
- Each run of the `kaggle` tool is a parameter. For datasets it is a function of the reference, so a reference listed twice gets the same run both times. Staged entries are not split into files and directories, because the script copies both kinds into the destination.
- Text.TitleCase: the `str.title()` rule is stated with the ASCII case mapping, for the same reason as `Text.TitleFrom`.
- Slug.TitleWithSpaces: the `str.title()` rule is stated with the ASCII case mapping, for the same reason as `Text.TitleFrom`.
- PushNotebook.RequestedTitle: the `str.title()` rule is stated with the ASCII case mapping, for the same reason as `Text.TitleFrom`.
- Text.TitleFrom: handles ASCII letters only, because Python's `str.title()` uses the Unicode cased-character tables. The titles derived from a valid slug are ASCII.
- Slug.Normalize: lower-cases ASCII letters only. The few non-ASCII characters whose Python lower-case form contains an ASCII letter (KELVIN SIGN, LATIN CAPITAL LETTER I WITH DOT ABOVE) are treated as separators here, while Python keeps a letter from them.
- Notebooks.FetchNotebooks: its own contract only states the private filter. The full characterisation is `Notebooks.FetchNotebooksSpec`.
- Notebooks.RunBatch: its own contract only states the conservation law. The counts are stated in `Notebooks.RunBatchCounts` and the failed list in `Notebooks.RunBatchFailures`.
- Text.LowerOfTitleCase: holds for the model's ASCII case mapping only. Python's `str.title()` can change the length of a non-ASCII string (`'ß'.title()` is `'Ss'`), so the script is not promised this for such strings.
- Slug.NormalizeTitleCase: stated for the model's ASCII title-casing. For stems with non-ASCII letters whose Python title case differs in length or letters, the script's normalisation may differ.
- Slug.DefaultTitleNormalizes: stated for the model's ASCII title-casing, for the same reason as `Slug.NormalizeTitleCase`.
- PushNotebook.DefaultTitleKept: stated for the model's ASCII title-casing, for the same reason as `Slug.NormalizeTitleCase`.
- Competition.ParseEntries: its own contract only states that accepted references are qualified. The full characterisation is `Competition.ParseEntriesSpec`.

=== FILE: competition.dfy ===
/**
 download_competition_data.py: resolve the configuration, parse the list of
 extra input datasets, fetch the competition files, then fetch each dataset
 in turn. Every run of the `kaggle` command line tool is an oracle: it is
 missing, or it ran with an exit status and left entries in the staging
 directory, each of which opens as a zip archive or does not.
 */
module Competition {
  import opened Wrappers
  import opened Text
  import opened Config

  // ---------------------------------------------------------------- dataset list

  /** One requested dataset: its reference and the destination given after `:`, if any. */
  datatype DatasetRequest = DatasetRequest(ref: string, destination: Option<string>)

  datatype DatasetListError = InvalidReference(ref: string)

  /**
   One entry after `entry.strip()`: `ref[:destination]`, split at the first
   `:`, both halves stripped again.
   */
  function ParseEntry(entry: string): (q: DatasetRequest)
    ensures q.destination.Some? <==> ':' in StripSpace(entry)
    ensures ':' !in q.ref
  {
    var stripped := StripSpace(entry);
    match SplitFirst(stripped, ':')
    case None => DatasetRequest(stripped, None)
    case Some((left, right)) =>
      StripSpaceColonFree(left);
      DatasetRequest(StripSpace(left), Some(StripSpace(right)))
  }

  /** Both halves of a parsed entry are stripped. */
  lemma ParseEntryShape(entry: string)
    ensures var q := ParseEntry(entry);
      && Trimmed(q.ref)
      && (q.destination.Some? ==> Trimmed(q.destination.value))
  {
    var stripped := StripSpace(entry);
    StripSpaceTrimmed(entry);
    match SplitFirst(stripped, ':')
    case None =>
    case Some((left, right)) =>
      StripSpaceTrimmed(left);
      StripSpaceTrimmed(right);
  }

  lemma StripSpaceColonFree(s: string)
    requires ':' !in s
    ensures ':' !in StripSpace(s)
  {
    var t := TrimStart(s, IsSpace);
    var r := TrimEnd(t, IsSpace);
    assert forall i :: 0 <= i < |r| ==> r[i] == t[i] == s[i + |s| - |t|];
  }

  /** The requests the non-blank entries describe, in order, before any validation. */
  function Requests(entries: seq<string>): (qs: seq<DatasetRequest>)
    decreases |entries|
  {
    if entries == [] then []
    else if StripSpace(entries[0]) == [] then Requests(entries[1..])
    else [ParseEntry(entries[0])] + Requests(entries[1..])
  }

  /** The `for entry in raw_value.split(",")` loop: validate and collect, failing on the first bad reference. */
  function ParseEntries(entries: seq<string>): (r: Result<seq<DatasetRequest>, DatasetListError>)
    ensures r.Success? ==> AllQualified(r.value)
    decreases |entries|
  {
    if entries == [] then Success([])
    else if StripSpace(entries[0]) == [] then ParseEntries(entries[1..])
    else
      var q := ParseEntry(entries[0]);
      if '/' !in q.ref then Failure(InvalidReference(q.ref))
      else
        match ParseEntries(entries[1..])
        case Failure(e) => Failure(e)
        case Success(rest) =>
          QualifiedCons(q, rest);
          Success([q] + rest)
  }

  /** Every reference has the `<owner>/<dataset>` shape the script checks for. */
  predicate AllQualified(qs: seq<DatasetRequest>) {
    forall i :: 0 <= i < |qs| ==> '/' in qs[i].ref
  }

  lemma QualifiedCons(q: DatasetRequest, qs: seq<DatasetRequest>)
    requires '/' in q.ref && AllQualified(qs)
    ensures AllQualified([q] + qs)
  {
    forall i | 0 <= i < |qs| + 1
      ensures '/' in ([q] + qs)[i].ref
    {
      if i > 0 {
        assert ([q] + qs)[i] == qs[i - 1];
      }
    }
  }

  /** Index of the first request whose reference lacks a `/`, or `|qs|`. */
  function FirstUnqualified(qs: seq<DatasetRequest>): (n: nat)
    ensures n <= |qs|
    ensures forall i :: 0 <= i < n ==> '/' in qs[i].ref
    ensures n < |qs| ==> '/' !in qs[n].ref
    ensures n == |qs| <==> AllQualified(qs)
    decreases |qs|
  {
    if qs == [] || '/' !in qs[0].ref then 0
    else
      var n := 1 + FirstUnqualified(qs[1..]);
      assert forall i :: 1 <= i < |qs| ==> qs[i] == qs[1..][i - 1];
      n
  }

  /**
   Parsing yields the requests of the non-blank entries, in order, unless one
   of them lacks a `/`; then it reports the first such reference.
   */
  lemma {:induction false} ParseEntriesSpec(entries: seq<string>)
    ensures var qs := Requests(entries); var n := FirstUnqualified(qs);
      ParseEntries(entries) == if n < |qs| then Failure(InvalidReference(qs[n].ref)) else Success(qs)
    decreases |entries|
  {
    if entries != [] {
      ParseEntriesSpec(entries[1..]);
      if StripSpace(entries[0]) != [] {
        var q := ParseEntry(entries[0]);
        var tail := Requests(entries[1..]);
        assert Requests(entries) == [q] + tail;
        assert ([q] + tail)[1..] == tail;
      }
    }
  }

  /** `parse_input_datasets`: an unset or empty value means no datasets. */
  function ParseInputDatasets(raw: Option<string>): (r: Result<seq<DatasetRequest>, DatasetListError>)
    ensures !Truthy(raw) ==> r == Success([])
    ensures Truthy(raw) ==> r == ParseEntries(Split(raw.value, ','))
    ensures r.Success? ==> AllQualified(r.value)
  {
    if !Truthy(raw) then Success([]) else ParseEntries(Split(raw.value, ','))
  }

  /** The text a request is written as in the list. */
  function FormatEntry(q: DatasetRequest): string {
    match q.destination
    case None => q.ref
    case Some(d) => q.ref + ":" + d
  }

  /** A request that can be written in the list and read back. */
  predicate Writable(q: DatasetRequest) {
    && '/' in q.ref && ',' !in q.ref && ':' !in q.ref && Trimmed(q.ref)
    && (q.destination.Some? ==> ',' !in q.destination.value && Trimmed(q.destination.value))
  }

  predicate AllWritable(qs: seq<DatasetRequest>) {
    forall i :: 0 <= i < |qs| ==> Writable(qs[i])
  }

  /** The entries of a list, one per request. */
  function Formatted(qs: seq<DatasetRequest>): (es: seq<string>)
    ensures |es| == |qs|
    decreases |qs|
  {
    if qs == [] then [] else [FormatEntry(qs[0])] + Formatted(qs[1..])
  }

  /** `",".join(...)` of the entries. */
  function FormatList(qs: seq<DatasetRequest>): string {
    Join(Formatted(qs), ',')
  }

  lemma ParseEntryOfFormat(q: DatasetRequest)
    requires Writable(q)
    ensures StripSpace(FormatEntry(q)) == FormatEntry(q) != []
    ensures ParseEntry(FormatEntry(q)) == q
    ensures ',' !in FormatEntry(q)
  {
    var e := FormatEntry(q);
    match q.destination
    case None =>
      StripSpaceTrimmed(e);
    case Some(d) =>
      assert e == q.ref + [':'] + d;
      assert Trimmed(e);
      StripSpaceTrimmed(e);
      SplitFirstOf(q.ref, d, ':');
      StripSpaceTrimmed(q.ref);
      StripSpaceTrimmed(d);
  }

  lemma {:induction false} FormattedAt(qs: seq<DatasetRequest>, i: nat)
    requires i < |qs|
    ensures Formatted(qs)[i] == FormatEntry(qs[i])
    decreases i
  {
    if i > 0 {
      FormattedAt(qs[1..], i - 1);
    }
  }

  lemma AllWritableTail(qs: seq<DatasetRequest>)
    requires qs != [] && AllWritable(qs)
    ensures Writable(qs[0]) && AllWritable(qs[1..])
  {
    forall i | 0 <= i < |qs[1..]|
      ensures Writable(qs[1..][i])
    {
      assert qs[1..][i] == qs[i + 1];
    }
  }

  lemma {:induction false} ParseEntriesOfFormat(qs: seq<DatasetRequest>)
    requires AllWritable(qs)
    ensures ParseEntries(Formatted(qs)) == Success(qs)
    decreases |qs|
  {
    if qs != [] {
      var q, rest := qs[0], qs[1..];
      assert qs == [q] + rest;
      AllWritableTail(qs);
      ParseEntriesOfFormat(rest);
      FormattedCons(q, rest);
    }
  }

  /** One more request in front: its entry parses back to it, ahead of the rest. */
  lemma FormattedCons(q: DatasetRequest, rest: seq<DatasetRequest>)
    requires Writable(q) && ParseEntries(Formatted(rest)) == Success(rest)
    ensures ParseEntries(Formatted([q] + rest)) == Success([q] + rest)
  {
    var e := FormatEntry(q);
    ParseEntryOfFormat(q);
    assert ([q] + rest)[1..] == rest;
    ParseEntriesCons(e, Formatted(rest), q, rest);
  }

  /** Each formatted entry is non-blank and free of commas. */
  lemma FormattedParts(qs: seq<DatasetRequest>)
    requires AllWritable(qs)
    ensures forall i :: 0 <= i < |qs| ==> ',' !in Formatted(qs)[i] && Formatted(qs)[i] != []
  {
    forall i | 0 <= i < |qs|
      ensures ',' !in Formatted(qs)[i] && Formatted(qs)[i] != []
    {
      assert Writable(qs[i]);
      FormattedAt(qs, i);
      ParseEntryOfFormat(qs[i]);
    }
  }

  /** Writing a list of requests and parsing it back gives the same requests. */
  lemma ParseFormatRoundTrip(qs: seq<DatasetRequest>)
    requires AllWritable(qs)
    ensures ParseInputDatasets(Some(FormatList(qs))) == Success(qs)
  {
    if qs != [] {
      var parts := Formatted(qs);
      FormattedParts(qs);
      SplitJoin(parts, ',');
      assert FormatList(qs) != [] by {
        assert parts[0] != [];
        if |parts| > 1 {
          assert FormatList(qs) == parts[0] + [','] + Join(parts[1..], ',');
        }
      }
      ParseEntriesOfFormat(qs);
    }
  }

  /** A blank entry is skipped, so stray commas and spaces change nothing. */
  lemma {:induction false} BlankEntriesSkipped(before: seq<string>, blank: string, after: seq<string>)
    requires StripSpace(blank) == []
    ensures Requests(before + [blank] + after) == Requests(before + after)
    decreases |before|
  {
    if before == [] {
      assert ([blank] + after)[1..] == after;
      assert before + [blank] + after == [blank] + after && before + after == after;
    } else {
      assert (before + [blank] + after)[1..] == before[1..] + [blank] + after;
      assert (before + after)[1..] == before[1..] + after;
      BlankEntriesSkipped(before[1..], blank, after);
    }
  }

  /** A leading space does not change how an entry parses. */
  lemma LeadingSpaceIgnored(e: string)
    ensures StripSpace([' '] + e) == StripSpace(e)
    ensures ParseEntry([' '] + e) == ParseEntry(e)
  {
    assert ([' '] + e)[1..] == e;
  }

  /** A non-blank, qualified entry in front adds its request in front. */
  lemma ParseEntriesCons(e: string, es: seq<string>, q: DatasetRequest, qs: seq<DatasetRequest>)
    requires StripSpace(e) != [] && ParseEntry(e) == q && '/' in q.ref
    requires ParseEntries(es) == Success(qs)
    ensures ParseEntries([e] + es) == Success([q] + qs)
  {
    assert ([e] + es)[0] == e && ([e] + es)[1..] == es;
  }

  lemma FirstEntryExample(e: string)
    requires e == "alice/cats"
    ensures StripSpace(e) != [] && ParseEntry(e) == DatasetRequest("alice/cats", None)
    ensures ',' !in e
  {
    var q := DatasetRequest(e, None);
    assert '/' in e && ',' !in e && ':' !in e && Trimmed(e);
    ParseEntryOfFormat(q);
  }

  /** A writable entry preceded by a space still parses to its request. */
  lemma PaddedEntry(q: DatasetRequest)
    requires Writable(q)
    ensures var e := [' '] + FormatEntry(q);
      StripSpace(e) != [] && ParseEntry(e) == q && ',' !in e
  {
    ParseEntryOfFormat(q);
    LeadingSpaceIgnored(FormatEntry(q));
  }

  lemma SecondEntryExample(e: string)
    requires e == " bob/dogs:out/dogs"
    ensures StripSpace(e) != [] && ParseEntry(e) == DatasetRequest("bob/dogs", Some("out/dogs"))
    ensures ',' !in e
  {
    var q := DatasetRequest("bob/dogs", Some("out/dogs"));
    assert FormatEntry(q) == "bob/dogs:out/dogs";
    assert e == [' '] + FormatEntry(q);
    assert Trimmed(q.ref) && Trimmed(q.destination.value);
    assert '/' in q.ref && ',' !in q.ref && ':' !in q.ref && ',' !in q.destination.value;
    PaddedEntry(q);
  }

  lemma SplitTwo(first: string, second: string)
    requires ',' !in first && ',' !in second
    ensures Split(first + [','] + second, ',') == [first] + [second]
  {
    SplitAfterPart(first, second, ',');
    SplitNoSeparator(second, ',');
  }

  lemma ParseOne(e: string, q: DatasetRequest)
    requires StripSpace(e) != [] && ParseEntry(e) == q && '/' in q.ref
    ensures ParseEntries([e]) == Success([q])
  {
    assert ParseEntries([]) == Success([]);
    ParseEntriesCons(e, [], q, []);
    SingleDisplay(e);
    SingleDisplay(q);
  }

  lemma ParseTwo(first: string, second: string, q1: DatasetRequest, q2: DatasetRequest)
    requires StripSpace(first) != [] && ParseEntry(first) == q1 && '/' in q1.ref
    requires StripSpace(second) != [] && ParseEntry(second) == q2 && '/' in q2.ref
    ensures ParseEntries([first] + [second]) == Success([q1] + [q2])
  {
    ParseOne(second, q2);
    ParseEntriesCons(first, [second], q1, [q2]);
  }

  lemma SingleDisplay<T>(a: T)
    ensures [a] + [] == [a]
  {
  }

  lemma PairDisplay<T>(a: T, b: T)
    ensures [a] + [b] == [a, b]
  {
  }

  /** A list of two comma-free entries reads as those two entries. */
  lemma ListOfTwo(first: string, second: string)
    requires ',' !in first && ',' !in second
    ensures ParseInputDatasets(Some(first + [','] + second)) == ParseEntries([first] + [second])
  {
    SplitTwo(first, second);
  }

  /** A list of two non-blank, qualified entries parses to their two requests, in order. */
  lemma TwoEntryList(first: string, second: string, q1: DatasetRequest, q2: DatasetRequest)
    requires ',' !in first && ',' !in second
    requires StripSpace(first) != [] && ParseEntry(first) == q1 && '/' in q1.ref
    requires StripSpace(second) != [] && ParseEntry(second) == q2 && '/' in q2.ref
    ensures ParseInputDatasets(Some(first + [','] + second)) == Success([q1, q2])
  {
    ParseTwo(first, second, q1, q2);
    ListOfTwo(first, second);
    PairDisplay(q1, q2);
  }

  /**
   Two entries, the second padded with a space and naming a destination:
   the space is stripped and the destination split off at the colon.
   */
  lemma TwoDatasetsExample(raw: string, first: string, second: string)
    requires first == "alice/cats" && second == " bob/dogs:out/dogs"
    requires raw == first + "," + second
    ensures ParseInputDatasets(Some(raw)) ==
      Success([DatasetRequest("alice/cats", None), DatasetRequest("bob/dogs", Some("out/dogs"))])
  {
    FirstEntryExample(first);
    SecondEntryExample(second);
    var q1, q2 := DatasetRequest("alice/cats", None), DatasetRequest("bob/dogs", Some("out/dogs"));
    assert raw == first + [','] + second;
    TwoEntryList(first, second, q1, q2);
  }

  /** A lone entry without `/` (or `:` or `,`) is rejected, naming the reference. */
  lemma RejectsUnqualified(ref: string)
    requires ref != [] && Trimmed(ref) && '/' !in ref && ',' !in ref && ':' !in ref
    ensures ParseInputDatasets(Some(ref)) == Failure(InvalidReference(ref))
  {
    SplitNoSeparator(ref, ',');
    StripSpaceTrimmed(ref);
    assert [ref][1..] == [];
  }

  lemma RejectsUnqualifiedExample(raw: string)
    requires raw == "no-slash-here"
    ensures ParseInputDatasets(Some(raw)) == Failure(InvalidReference("no-slash-here"))
  {
    assert Trimmed(raw) && '/' !in raw && ',' !in raw && ':' !in raw;
    RejectsUnqualified(raw);
  }

  /** Only the presence of `/` is checked: an empty owner is accepted. */
  lemma AcceptsEmptyOwnerExample(raw: string)
    requires raw == "/x"
    ensures ParseInputDatasets(Some(raw)) == Success([DatasetRequest("/x", None)])
  {
    var q := DatasetRequest(raw, None);
    assert Trimmed(raw) && '/' in raw && ',' !in raw && ':' !in raw;
    assert AllWritable([q]);
    ParseFormatRoundTrip([q]);
    assert Formatted([q]) == [raw];
  }

  // ---------------------------------------------------------------- destinations

  const DownloadDir := "KAGGLE_DOWNLOAD_DIR"
  const InputDatasets := "KAGGLE_INPUT_DATASETS"
  const InputRoot := "data/input/"

  /** `args.destination or env.get("KAGGLE_DOWNLOAD_DIR") or f"data/input/{competition}"`. */
  function CompetitionDestination(destArg: Option<string>, env: Env): (d: string)
    requires Competition in env
    ensures Truthy(destArg) ==> d == destArg.value
    ensures !Truthy(destArg) && Truthy(Get(env, DownloadDir)) ==> d == env[DownloadDir]
    ensures !Truthy(destArg) && !Truthy(Get(env, DownloadDir)) ==> d == InputRoot + env[Competition]
  {
    Or(Or(destArg, Get(env, DownloadDir)), Some(InputRoot + env[Competition])).value
  }

  /** `custom_dest or f"data/input/{slug}"` where the slug is what follows the first `/`. */
  function DatasetDestination(q: DatasetRequest): (d: string)
    requires '/' in q.ref
    ensures q.destination.Some? ==> d == q.destination.value
  {
    match q.destination
    case Some(dest) => dest
    case None => InputRoot + SplitFirst(q.ref, '/').value.1
  }

  /** The default destination of `owner/rest` is `data/input/rest`, even when `rest` holds more slashes. */
  lemma DefaultDatasetDestination(owner: string, rest: string)
    requires '/' !in owner
    ensures DatasetDestination(DatasetRequest(owner + "/" + rest, None)) == InputRoot + rest
  {
    assert owner + "/" + rest == owner + ['/'] + rest;
    SplitFirstOf(owner, rest, '/');
  }

  // ---------------------------------------------------------------- transfers

  /** An entry left in the staging directory, and whether it opens as a zip archive. */
  datatype StagedEntry = StagedEntry(name: string, opens: bool)

  /** Matches the `*.zip` glob. */
  predicate IsZip(e: StagedEntry) {
    EndsWith(e.name, ".zip")
  }

  /** The staged zip archives, in staging order. */
  function Zips(staged: seq<StagedEntry>): (zs: seq<StagedEntry>)
    ensures forall e :: e in zs <==> e in staged && IsZip(e)
    ensures |zs| <= |staged|
    decreases |staged|
  {
    if staged == [] then []
    else
      assert forall e :: e in staged <==> e == staged[0] || e in staged[1..] by {
        assert staged == [staged[0]] + staged[1..];
      }
      if IsZip(staged[0]) then [staged[0]] + Zips(staged[1..]) else Zips(staged[1..])
  }

  /** Filtering distributes over concatenation, so the archives keep their staging order and multiplicity. */
  lemma {:induction false} ZipsAppend(a: seq<StagedEntry>, b: seq<StagedEntry>)
    ensures Zips(a + b) == Zips(a) + Zips(b)
    decreases |a|
  {
    if a == [] {
      assert a + b == b;
    } else {
      var e, rest := a[0], a[1..];
      assert a + b == [e] + (rest + b);
      assert (a + b)[0] == e && (a + b)[1..] == rest + b;
      ZipsAppend(rest, b);
      if IsZip(e) {
        assert Zips(a + b) == [e] + (Zips(rest) + Zips(b));
      }
    }
  }

  /** A single staged entry is kept exactly when its name ends in `.zip`. */
  lemma ZipsOne(e: StagedEntry)
    ensures Zips([e]) == (if IsZip(e) then [e] else [])
  {
    assert [e][1..] == [];
  }

  /** `*.zip` matches a name exactly when it is some stem followed by `.zip`. */
  lemma IsZipName(e: StagedEntry, stem: string)
    ensures e.name == stem + ".zip" ==> IsZip(e)
    ensures IsZip(e) && stem == e.name[..|e.name| - 4] ==> e.name == stem + ".zip"
  {
    EndsWithSpec(e.name, stem, ".zip");
  }

  function Names(es: seq<StagedEntry>): (ns: seq<string>)
    ensures |ns| == |es| && forall i :: 0 <= i < |es| ==> ns[i] == es[i].name
  {
    seq(|es|, i requires 0 <= i < |es| => es[i].name)
  }

  /** One run of the `kaggle` tool: not installed, or exited with a status after staging entries. */
  datatype CliRun = CliMissing | CliRan(status: int, staged: seq<StagedEntry>)

  datatype TransferFailure =
    | ToolMissing
    | ToolFailed(status: int)
    | NothingDownloaded
    | BadArchive(name: string, extracted: seq<string>)   // the archives extracted before it stay in place

  /** What reached the destination. */
  datatype Delivery = Extracted(archives: seq<string>) | Copied(items: seq<string>)

  /** Index of the first archive that does not open, or `|zips|`. */
  function FirstBad(zips: seq<StagedEntry>): (n: nat)
    ensures n <= |zips|
    ensures forall i :: 0 <= i < n ==> zips[i].opens
    ensures n < |zips| ==> !zips[n].opens
    decreases |zips|
  {
    if zips == [] || !zips[0].opens then 0 else 1 + FirstBad(zips[1..])
  }

  /** The `for zip_file in zip_files` loop: extract in order, stopping at the first bad archive. */
  function ExtractAll(zips: seq<StagedEntry>): (r: Result<Delivery, TransferFailure>)
    ensures r.Success? <==> forall i :: 0 <= i < |zips| ==> zips[i].opens
    ensures r.Success? ==> r.value == Extracted(Names(zips))
    ensures r.Failure? ==>
      var n := FirstBad(zips);
      n < |zips| && r.error == BadArchive(zips[n].name, Names(zips[..n]))
  {
    var n := FirstBad(zips);
    if n < |zips| then Failure(BadArchive(zips[n].name, Names(zips[..n])))
    else Success(Extracted(Names(zips)))
  }

  /** `download_and_extract`: loose files are copied when nothing is zipped. */
  function FetchCompetition(run: CliRun): (r: Result<Delivery, TransferFailure>)
    ensures r == Failure(ToolMissing) <==> run.CliMissing?
    ensures r.Failure? && r.error.ToolFailed? <==> run.CliRan? && run.status != 0
    ensures r.Failure? && r.error.ToolFailed? ==> r.error.status == run.status != 0
    ensures r == Failure(NothingDownloaded) <==> run.CliRan? && run.status == 0 && run.staged == []
    ensures r.Success? && r.value.Copied? <==>
      run.CliRan? && run.status == 0 && run.staged != [] && Zips(run.staged) == []
    ensures r.Success? && r.value.Copied? ==> r.value.items == Names(run.staged)
    ensures run.CliRan? && run.status == 0 && Zips(run.staged) != [] ==> r == ExtractAll(Zips(run.staged))
  {
    match run
    case CliMissing => Failure(ToolMissing)
    case CliRan(status, staged) =>
      if status != 0 then Failure(ToolFailed(status))
      else
        var zips := Zips(staged);
        if zips == [] then
          if staged == [] then Failure(NothingDownloaded) else Success(Copied(Names(staged)))
        else
          ExtractAll(zips)
  }

  /** `download_input_dataset`: only zip archives count; there is no copying fallback. */
  function FetchDataset(run: CliRun): (r: Result<Delivery, TransferFailure>)
    ensures r == Failure(ToolMissing) <==> run.CliMissing?
    ensures r.Failure? && r.error.ToolFailed? <==> run.CliRan? && run.status != 0
    ensures r.Failure? && r.error.ToolFailed? ==> r.error.status == run.status
    ensures r == Failure(NothingDownloaded) <==> run.CliRan? && run.status == 0 && Zips(run.staged) == []
    ensures r.Success? ==> r.value.Extracted?
    ensures run.CliRan? && run.status == 0 && Zips(run.staged) != [] ==> r == ExtractAll(Zips(run.staged))
  {
    match run
    case CliMissing => Failure(ToolMissing)
    case CliRan(status, staged) =>
      if status != 0 then Failure(ToolFailed(status))
      else
        var zips := Zips(staged);
        if zips == [] then Failure(NothingDownloaded) else ExtractAll(zips)
  }

  /**
   The two transfers agree except when the tool stages only loose files:
   the competition copies them, a dataset reports that nothing was downloaded.
   */
  lemma TransfersDifferOnlyOnLooseFiles(run: CliRun)
    ensures FetchCompetition(run) != FetchDataset(run) <==>
      run.CliRan? && run.status == 0 && run.staged != [] && Zips(run.staged) == []
  {
  }

  // ---------------------------------------------------------------- datasets loop

  /** Whether the dataset `q` is fetched when the tool runs as `runs` says. */
  predicate Fetched(q: DatasetRequest, runs: string -> CliRun) {
    FetchDataset(runs(q.ref)).Success?
  }

  /** Index of the first dataset whose fetch fails, or `|qs|`. */
  function FirstFailedDataset(qs: seq<DatasetRequest>, runs: string -> CliRun): (n: nat)
    ensures n <= |qs|
    ensures forall i :: 0 <= i < n ==> Fetched(qs[i], runs)
    ensures n < |qs| ==> !Fetched(qs[n], runs)
    decreases |qs|
  {
    if qs == [] || !Fetched(qs[0], runs) then 0
    else
      var n := 1 + FirstFailedDataset(qs[1..], runs);
      assert forall i :: 1 <= i < |qs| ==> qs[i] == qs[1..][i - 1];
      n
  }

  /** The datasets after the first failing one are never fetched. */
  lemma LaterDatasetsNotFetched(qs: seq<DatasetRequest>, later: seq<DatasetRequest>, runs: string -> CliRun)
    requires FirstFailedDataset(qs, runs) < |qs|
    ensures FirstFailedDataset(qs[..FirstFailedDataset(qs, runs) + 1] + later, runs) == FirstFailedDataset(qs, runs)
  {
    var n := FirstFailedDataset(qs, runs);
    var other := qs[..n + 1] + later;
    forall j | 0 <= j <= n
      ensures other[j] == qs[j]
    {
    }
    FirstFailedDatasetAt(other, runs, n);
  }


  // ---------------------------------------------------------------- main

  datatype CompetitionOutcome =
    | ConfigRejected(configError: ConfigError)
    | DatasetListRejected(listError: DatasetListError)
    | CompetitionFailed(destination: string, failure: TransferFailure)
    | DatasetFailed(destination: string, delivery: Delivery, fetched: seq<DatasetRequest>, failed: DatasetRequest, failure: TransferFailure)
    | Completed(destination: string, delivery: Delivery, fetched: seq<DatasetRequest>)

  /** The exit code `main` returns: the tool's own status when it failed, otherwise 1 for every error. */
  function CompetitionExitCode(o: CompetitionOutcome): (code: int)
    ensures o.Completed? ==> code == 0
    ensures o.CompetitionFailed? && o.failure.ToolFailed? ==> code == o.failure.status
    ensures !o.Completed? && !(o.CompetitionFailed? && o.failure.ToolFailed?) ==> code == 1
  {
    match o
    case Completed(_, _, _) => 0
    case CompetitionFailed(_, ToolFailed(status)) => status
    case _ => 1
  }

  /**
   `main` of download_competition_data.py once the configuration is
   resolved to `env`. `competitionRun` is the run of
   `kaggle competitions download`; `datasetRuns` gives the run of
   `kaggle datasets download` for each reference.
   */
  function CompetitionRun(env: Env, destArg: Option<string>, competitionRun: CliRun, datasetRuns: string -> CliRun): (o: CompetitionOutcome)
    requires Competition in env
    ensures !o.ConfigRejected?
    ensures o.DatasetListRejected? <==> ParseInputDatasets(Get(env, InputDatasets)).Failure?
    ensures o.DatasetListRejected? ==> o.listError == ParseInputDatasets(Get(env, InputDatasets)).error
    ensures !o.DatasetListRejected? ==>
      && o.destination == CompetitionDestination(destArg, env)
      && (o.CompetitionFailed? <==> FetchCompetition(competitionRun).Failure?)
    ensures o.CompetitionFailed? ==> o.failure == FetchCompetition(competitionRun).error
    ensures o.DatasetFailed? || o.Completed? ==>
      var qs := ParseInputDatasets(Get(env, InputDatasets)).value;
      && o.delivery == FetchCompetition(competitionRun).value
      && o.fetched == qs[..FirstFailedDataset(qs, datasetRuns)]
      && (o.Completed? <==> FirstFailedDataset(qs, datasetRuns) == |qs|)
    ensures o.DatasetFailed? ==>
      var qs := ParseInputDatasets(Get(env, InputDatasets)).value;
      && o.failed == qs[FirstFailedDataset(qs, datasetRuns)]
      && !Fetched(o.failed, datasetRuns)
      && o.failure == FetchDataset(datasetRuns(o.failed.ref)).error
    ensures CompetitionExitCode(o) == 0 <==> o.Completed?
  {
    match ParseInputDatasets(Get(env, InputDatasets))
    case Failure(e) => DatasetListRejected(e)
    case Success(qs) =>
      var destination := CompetitionDestination(destArg, env);
      match FetchCompetition(competitionRun)
      case Failure(f) => CompetitionFailed(destination, f)
      case Success(delivery) =>
        var n := FirstFailedDataset(qs, datasetRuns);
        if n < |qs| then
          DatasetFailed(destination, delivery, qs[..n], qs[n], FetchDataset(datasetRuns(qs[n].ref)).error)
        else
          Completed(destination, delivery, qs)
  }

  /** `main` of download_competition_data.py: the configuration is resolved first and rejected with exit code 1. */
  function CompetitionMain(
    base: EnvFile, secrets: EnvFile, destArg: Option<string>,
    competitionRun: CliRun, datasetRuns: string -> CliRun): (o: CompetitionOutcome)
    ensures o.ConfigRejected? <==> CompetitionConfig(base, secrets).Failure?
    ensures o.ConfigRejected? ==> o.configError == CompetitionConfig(base, secrets).error
    ensures CompetitionConfig(base, secrets).Success? ==>
      o == CompetitionRun(CompetitionConfig(base, secrets).value, destArg, competitionRun, datasetRuns)
  {
    match CompetitionConfig(base, secrets)
    case Failure(e) => ConfigRejected(e)
    case Success(env) => CompetitionRun(env, destArg, competitionRun, datasetRuns)
  }

  /**
   The `for dataset_ref, custom_dest in input_datasets` loop: fetch in
   order, returning at the first failure with the destinations used so far.
   */
  method FetchDatasets(qs: seq<DatasetRequest>, runs: string -> CliRun) returns (destinations: seq<string>, failedAt: nat)
    requires AllQualified(qs)
    ensures failedAt == FirstFailedDataset(qs, runs)
    ensures |destinations| == failedAt
    ensures forall i :: 0 <= i < failedAt ==> destinations[i] == DatasetDestination(qs[i])
  {
    destinations := [];
    var i := 0;
    while i < |qs|
      invariant 0 <= i <= |qs|
      invariant FetchedBefore(qs, runs, i)
      invariant |destinations| == i
      invariant forall j :: 0 <= j < i ==> destinations[j] == DatasetDestination(qs[j])
    {
      var failed;
      failed, destinations := DatasetStep(qs, runs, i, destinations);
      if failed {
        return destinations, i;
      }
      i := i + 1;
    }
    FirstFailedDatasetAt(qs, runs, i);
    failedAt := i;
  }

  /**
   One iteration of the dataset loop: a failed fetch ends the run at `i`;
   otherwise the dataset's destination is appended.
   */
  method DatasetStep(qs: seq<DatasetRequest>, runs: string -> CliRun, i: nat, destinations: seq<string>)
    returns (failed: bool, next: seq<string>)
    requires AllQualified(qs) && i < |qs| && |destinations| == i
    requires FetchedBefore(qs, runs, i)
    requires forall j :: 0 <= j < i ==> destinations[j] == DatasetDestination(qs[j])
    ensures failed <==> !Fetched(qs[i], runs)
    ensures failed ==> FirstFailedDataset(qs, runs) == i && next == destinations
    ensures !failed ==> FetchedBefore(qs, runs, i + 1)
    ensures !failed ==> |next| == i + 1 && forall j :: 0 <= j <= i ==> next[j] == DatasetDestination(qs[j])
  {
    if !Fetched(qs[i], runs) {
      FirstFailedDatasetAt(qs, runs, i);
      return true, destinations;
    }
    var d := DatasetDestination(qs[i]);
    next := destinations + [d];
    AppendKeeps(destinations, d);
    FetchedBeforeNext(qs, runs, i);
    failed := false;
  }

  /** Appending keeps every earlier element in place. */
  lemma AppendKeeps(ds: seq<string>, d: string)
    ensures |ds + [d]| == |ds| + 1 && (ds + [d])[|ds|] == d
    ensures forall j :: 0 <= j < |ds| ==> (ds + [d])[j] == ds[j]
  {
  }

  lemma FetchedBeforeNext(qs: seq<DatasetRequest>, runs: string -> CliRun, i: nat)
    requires i < |qs| && FetchedBefore(qs, runs, i) && Fetched(qs[i], runs)
    ensures FetchedBefore(qs, runs, i + 1)
  {
  }

  /** Every dataset before index `n` was fetched. */
  predicate FetchedBefore(qs: seq<DatasetRequest>, runs: string -> CliRun, n: nat)
    requires n <= |qs|
  {
    forall j :: 0 <= j < n ==> Fetched(qs[j], runs)
  }

  /** The first failure is at `n` when everything before `n` succeeds and `n` fails or ends the list. */
  lemma {:induction false} FirstFailedDatasetAt(qs: seq<DatasetRequest>, runs: string -> CliRun, n: nat)
    requires n <= |qs|
    requires FetchedBefore(qs, runs, n)
    requires n < |qs| ==> !Fetched(qs[n], runs)
    ensures FirstFailedDataset(qs, runs) == n
    decreases n
  {
    if n > 0 {
      assert FetchedBefore(qs[1..], runs, n - 1) by {
        assert forall j :: 0 <= j < n - 1 ==> qs[1..][j] == qs[j + 1];
      }
      FirstFailedDatasetAt(qs[1..], runs, n - 1);
    }
  }
}

=== FILE: config.dfy ===
/**
 Layered configuration: each script reads a base settings file and a secrets
 file, overlays the secrets on the base, and insists that a fixed set of keys
 is present. The three scripts differ only in which file is mandatory and in
 the required key set, so they share one `Resolve` with a `Layering`.
 */
module Config {
  import opened Wrappers
  import opened Text

  /**
   What the dotenv reader yields for one file: `None` when the file does not
   exist, otherwise every key with its value (`None` for a key without one).
   */
  type EnvFile = Option<map<string, Option<string>>>

  /** The effective settings: every key with a value. */
  type Env = map<string, string>

  datatype ConfigError =
    | ConfigMissing                         // a mandatory file does not exist
    | ConfigEmpty                           // a mandatory file has no key with a value
    | ConfigIncomplete(missing: seq<string>) // required keys absent, sorted

  /**
   `dotenv_values` without the keys whose value is `None`: a key is kept
   exactly when the file exists and gives it a value, and keeps that value.
   */
  function Values(file: EnvFile): (env: Env)
    ensures forall k :: k in env <==> file.Some? && k in file.value && file.value[k].Some?
    ensures forall k :: k in env ==> file.value[k] == Some(env[k])
  {
    match file
    case None => map[]
    case Some(entries) => map k | k in entries && entries[k].Some? :: entries[k].value
  }

  /** `parse_env_file(path, required=required)`. */
  function ParseEnvFile(file: EnvFile, required: bool): (r: Result<Env, ConfigError>)
    ensures r == Failure(ConfigMissing) <==> file.None? && required
    ensures r == Failure(ConfigEmpty) <==>
      file.Some? && required && forall k :: k in file.value ==> file.value[k].None?
    ensures r.Failure? ==> r.error.ConfigMissing? || r.error.ConfigEmpty?
    ensures r.Success? ==> forall k :: k in r.value <==> file.Some? && k in file.value && file.value[k].Some?
    ensures r.Success? ==> forall k :: k in r.value ==> file.value[k] == Some(r.value[k])
  {
    var data := Values(file);
    if file.None? && required then Failure(ConfigMissing)
    else if required && data == map[] then
      assert forall k :: k in file.value ==> file.value[k].None? by {
        forall k | k in file.value
          ensures file.value[k].None?
        {
          assert k !in data;
        }
      }
      Failure(ConfigEmpty)
    else
      assert required && file.Some? ==> exists k :: k in file.value && file.value[k].Some? by {
        if required && file.Some? {
          var k :| k in data;
          assert k in file.value && file.value[k].Some?;
        }
      }
      Success(data)
  }

  /** `env.update(secrets)`: the secrets win on a shared key. */
  function Overlay(base: Env, secrets: Env): (r: Env)
    ensures r.Keys == base.Keys + secrets.Keys
    ensures forall k :: k in secrets ==> r[k] == secrets[k]
    ensures forall k :: k in base && k !in secrets ==> r[k] == base[k]
  {
    base + secrets
  }

  /**
   The required keys that `env` lacks, in the order of `required`. A required
   key set is given by its sorted listing, so the result is `sorted(missing)`.
   */
  function MissingKeys(required: seq<string>, env: Env): (missing: seq<string>)
    ensures forall k :: k in missing <==> k in required && k !in env
    ensures StrictlySorted(required) ==> StrictlySorted(missing)
    decreases |required|
  {
    if required == [] then []
    else
      var rest := MissingKeys(required[1..], env);
      if required[0] in env then rest
      else
        assert StrictlySorted(required) ==> forall j :: 0 <= j < |rest| ==> Less(required[0], rest[j]) by {
          if StrictlySorted(required) {
            forall j | 0 <= j < |rest|
              ensures Less(required[0], rest[j])
            {
              assert rest[j] in required[1..];
              var m :| 0 <= m < |required[1..]| && required[1..][m] == rest[j];
              assert required[m + 1] == rest[j];
            }
          }
        }
        [required[0]] + rest
  }

  /** `ensure_credentials` / `ensure_requirements`. */
  function EnsureRequired(env: Env, required: seq<string>): (r: Result<Env, ConfigError>)
    ensures r.Success? <==> forall k :: k in required ==> k in env
    ensures r.Success? ==> r.value == env
    ensures r.Failure? ==> r.error.ConfigIncomplete? && r.error.missing != []
    ensures r.Failure? ==> forall k :: k in r.error.missing <==> k in required && k !in env
    ensures r.Failure? && StrictlySorted(required) ==> StrictlySorted(r.error.missing)
  {
    var missing := MissingKeys(required, env);
    if missing != [] then
      assert missing[0] in missing;
      Failure(ConfigIncomplete(missing))
    else
      assert forall k :: k in required ==> k in env by {
        forall k | k in required
          ensures k in env
        {
          assert k !in missing;
        }
      }
      Success(env)
  }

  /** Which file is mandatory, and the sorted listing of the required keys. */
  datatype Layering = Layering(baseRequired: bool, secretsRequired: bool, required: seq<string>)

  /** A file that parses under `required`. */
  predicate Readable(file: EnvFile, required: bool) {
    ParseEnvFile(file, required).Success?
  }

  /**
   Parse the base file, parse the secrets file, overlay the secrets on the base
   and check the required keys, failing at the first step that fails.
   */
  function Resolve(base: EnvFile, secrets: EnvFile, layering: Layering): (r: Result<Env, ConfigError>)
    ensures !Readable(base, layering.baseRequired) ==> r == ParseEnvFile(base, layering.baseRequired)
    ensures Readable(base, layering.baseRequired) && !Readable(secrets, layering.secretsRequired) ==>
      r == ParseEnvFile(secrets, layering.secretsRequired)
    ensures r.Success? <==>
      && Readable(base, layering.baseRequired)
      && Readable(secrets, layering.secretsRequired)
      && forall k :: k in layering.required ==> k in Values(base) || k in Values(secrets)
    ensures r.Success? ==> r.value.Keys == Values(base).Keys + Values(secrets).Keys
    ensures r.Success? ==> forall k :: k in Values(secrets) ==> r.value[k] == Values(secrets)[k]
    ensures r.Success? ==> forall k :: k in Values(base) && k !in Values(secrets) ==> r.value[k] == Values(base)[k]
    ensures r.Failure? && Readable(base, layering.baseRequired) && Readable(secrets, layering.secretsRequired) ==>
      r.error.ConfigIncomplete?
    ensures r.Failure? && r.error.ConfigIncomplete? ==>
      && (forall k :: k in r.error.missing <==> k in layering.required && k !in Values(base) && k !in Values(secrets))
      && (StrictlySorted(layering.required) ==> StrictlySorted(r.error.missing))
  {
    match ParseEnvFile(base, layering.baseRequired)
    case Failure(e) => Failure(e)
    case Success(baseEnv) =>
      match ParseEnvFile(secrets, layering.secretsRequired)
      case Failure(e) => Failure(e)
      case Success(secretsEnv) =>
        EnsureRequired(Overlay(baseEnv, secretsEnv), layering.required)
  }

  /** The common prefix of the setting names. */
  const Prefix := "KAGGLE_"
  const Username := Prefix + "USERNAME"
  const Key := Prefix + "KEY"
  const Competition := Prefix + "COMPETITION"

  /** `REQUIRED_KEYS` of the notebook scripts, sorted. */
  const CredentialKeys: seq<string> := [Key, Username]

  /** `REQUIRED_KEYS` of the competition downloader, sorted. */
  const CompetitionKeys: seq<string> := [Competition, Key, Username]

  /** The key listings are in Python's sort order, so missing keys come out sorted. */
  lemma RequiredKeysSorted()
    ensures StrictlySorted(CredentialKeys)
    ensures StrictlySorted(CompetitionKeys)
  {
    KeyOrder();
    SortedPair(Key, Username);
    SortedTriple(Competition, Key, Username);
  }

  lemma SortedPair(a: string, b: string)
    requires Less(a, b)
    ensures StrictlySorted([a, b])
  {
  }

  lemma SortedTriple(a: string, b: string, c: string)
    requires Less(a, b) && Less(b, c) && Less(a, c)
    ensures StrictlySorted([a, b, c])
  {
    var s := [a, b, c];
    forall i, j | 0 <= i < j < 3
      ensures Less(s[i], s[j])
    {
      if i == 0 && j == 1 {
      } else if i == 0 {
        assert j == 2;
      } else {
        assert i == 1 && j == 2;
      }
    }
  }

  lemma KeyOrder()
    ensures Less(Competition, Key) && Less(Key, Username) && Less(Competition, Username)
  {
    FirstLetterOrder("COMPETITION", "KEY");
    FirstLetterOrder("KEY", "USERNAME");
    FirstLetterOrder("COMPETITION", "USERNAME");
    LessUnderPrefix(Prefix, "KEY", "USERNAME");
    LessUnderPrefix(Prefix, "COMPETITION", "KEY");
    LessUnderPrefix(Prefix, "COMPETITION", "USERNAME");
  }

  lemma FirstLetterOrder(a: string, b: string)
    requires a != [] && b != [] && a[0] < b[0]
    ensures Less(a, b)
  {
  }

  /** push_notebook.py: the base file is optional, the secrets file mandatory. */
  const PushLayering := Layering(false, true, CredentialKeys)

  /** download_notebooks.py: the base file is mandatory, the secrets file optional. */
  const NotebooksLayering := Layering(true, false, CredentialKeys)

  /** download_competition_data.py: as the notebooks downloader, plus the competition key. */
  const CompetitionLayering := Layering(true, false, CompetitionKeys)

  /** The configuration step of push_notebook.py's `main`. */
  function PushConfig(base: EnvFile, secrets: EnvFile): (r: Result<Env, ConfigError>)
    ensures secrets.None? ==> r == Failure(ConfigMissing)
    ensures secrets.Some? && Values(secrets) == map[] ==> r == Failure(ConfigEmpty)
    ensures r.Success? <==> Values(secrets) != map[] && forall k :: k in CredentialKeys ==> k in Values(base) || k in Values(secrets)
    ensures r.Success? ==> Username in r.value && Key in r.value
    ensures r.Success? ==> r.value.Keys == Values(base).Keys + Values(secrets).Keys
    ensures r.Success? ==> forall k :: k in Values(secrets) ==> r.value[k] == Values(secrets)[k]
    ensures r.Failure? && r.error.ConfigIncomplete? ==> StrictlySorted(r.error.missing)
  {
    RequiredKeysSorted();
    Resolve(base, secrets, PushLayering)
  }

  /** The configuration step of download_notebooks.py's `main`. */
  function NotebooksConfig(base: EnvFile, secrets: EnvFile): (r: Result<Env, ConfigError>)
    ensures base.None? ==> r == Failure(ConfigMissing)
    ensures base.Some? && Values(base) == map[] ==> r == Failure(ConfigEmpty)
    ensures r.Success? <==> Values(base) != map[] && forall k :: k in CredentialKeys ==> k in Values(base) || k in Values(secrets)
    ensures r.Success? ==> Username in r.value && Key in r.value
    ensures r.Success? ==> r.value.Keys == Values(base).Keys + Values(secrets).Keys
    ensures r.Success? ==> forall k :: k in Values(secrets) ==> r.value[k] == Values(secrets)[k]
    ensures r.Failure? && r.error.ConfigIncomplete? ==> StrictlySorted(r.error.missing)
  {
    RequiredKeysSorted();
    Resolve(base, secrets, NotebooksLayering)
  }

  /** The configuration step of download_competition_data.py's `main`. */
  function CompetitionConfig(base: EnvFile, secrets: EnvFile): (r: Result<Env, ConfigError>)
    ensures base.None? ==> r == Failure(ConfigMissing)
    ensures base.Some? && Values(base) == map[] ==> r == Failure(ConfigEmpty)
    ensures r.Success? <==> Values(base) != map[] && forall k :: k in CompetitionKeys ==> k in Values(base) || k in Values(secrets)
    ensures r.Success? ==> Username in r.value && Key in r.value && Competition in r.value
    ensures r.Success? ==> r.value.Keys == Values(base).Keys + Values(secrets).Keys
    ensures r.Success? ==> forall k :: k in Values(secrets) ==> r.value[k] == Values(secrets)[k]
    ensures r.Failure? && r.error.ConfigIncomplete? ==> StrictlySorted(r.error.missing)
  {
    RequiredKeysSorted();
    Resolve(base, secrets, CompetitionLayering)
  }

  /**
   A base file with only the user name and an empty secrets file: the notebooks
   downloader reports exactly the key as missing.
   */
  lemma MissingKeyExample()
    ensures NotebooksConfig(Some(map[Username := Some("a")]), Some(map[])) == Failure(ConfigIncomplete([Key]))
  {
    var base: EnvFile := Some(map[Username := Some("a")]);
    var secrets: EnvFile := Some(map[]);
    assert Values(base) == map[Username := "a"];
    assert Values(secrets) == map[];
    assert Key != Username;
    assert Username in base.value && base.value[Username].Some?;
    assert Readable(base, true) && Readable(secrets, false);
    var r := NotebooksConfig(base, secrets);
    assert Key in CredentialKeys;
    var missing := r.error.missing;
    assert forall k :: k in missing <==> k in [Key];
    RequiredKeysSorted();
    SortedListingUnique(missing, [Key]);
  }
}

=== FILE: notebooks.dfy ===
/**
 download_notebooks.py: list an owner's notebooks page by page, decide for
 each one whether to skip, download or record a failure, and summarise.
 The remote service is an oracle: the pages it returns, and for each kernel
 reference whether pulling it succeeds. The destination directory is the set
 of target file names in it: the batch starts from the files already there
 and every successful pull adds the notebook's target.
 */
module Notebooks {
  import opened Wrappers
  import opened Text
  import opened Config

  /** The fields of a listed kernel the script reads. `isPrivate` is `bool(kernel.is_private)`. */
  datatype Kernel = Kernel(ref: string, slug: string, language: Option<string>, isPrivate: bool)

  const DefaultExtension := ".ipynb"

  /** `NOTEBOOK_EXTENSIONS`. */
  const NotebookExtensions: map<string, string> := map["python" := ".ipynb", "r" := ".irnb", "julia" := ".ijlnb"]

  /** `determine_extension`: look the lower-cased language up, defaulting to `.ipynb`. */
  function DetermineExtension(k: Kernel): (ext: string)
    ensures ext == ".ipynb" || ext == ".irnb" || ext == ".ijlnb"
    ensures ext == ".irnb" <==> Lower(k.language.GetOr("")) == "r"
    ensures ext == ".ijlnb" <==> Lower(k.language.GetOr("")) == "julia"
  {
    var language := Lower(k.language.GetOr(""));
    if language in NotebookExtensions then NotebookExtensions[language] else DefaultExtension
  }

  /**
   The file a listed kernel is saved as, relative to the destination: its
   slug and the extension of its language.
   */
  function TargetName(k: Kernel): (name: string)
    ensures |name| > |k.slug| && name[..|k.slug|] == k.slug
    ensures name[|k.slug|..] == DetermineExtension(k)
  {
    k.slug + DetermineExtension(k)
  }

  /** The target's extension by language: `.irnb` for R, `.ijlnb` for Julia, in any case, else `.ipynb`. */
  lemma TargetNameByLanguage(k: Kernel)
    ensures TargetName(k)[|k.slug|..] ==
      (if Lower(k.language.GetOr("")) == "r" then ".irnb"
       else if Lower(k.language.GetOr("")) == "julia" then ".ijlnb"
       else ".ipynb")
  {
  }

  datatype KernelRefError = EmptyKernelRef

  /** `normalize_kernel_ref`: a bare slug is qualified with the owner. */
  function NormalizeKernelRef(owner: string, kernel: string): (r: Result<string, KernelRefError>)
    ensures r.Failure? <==> StripSpace(kernel) == []
    ensures r.Success? ==> '/' in r.value
    ensures r.Success? && '/' in StripSpace(kernel) ==> r.value == StripSpace(kernel)
    ensures r.Success? && '/' !in StripSpace(kernel) ==> r.value == owner + "/" + StripSpace(kernel)
    ensures r.Success? && '/' !in StripSpace(kernel) && '/' !in owner ==>
      SplitFirst(r.value, '/') == Some((owner, StripSpace(kernel)))
  {
    var stripped := StripSpace(kernel);
    if stripped == [] then Failure(EmptyKernelRef)
    else if '/' in stripped then Success(stripped)
    else
      var ref := owner + "/" + stripped;
      assert ref == owner + ['/'] + stripped;
      assert '/' !in owner ==> SplitFirst(ref, '/') == Some((owner, stripped)) by {
        if '/' !in owner {
          SplitFirstOf(owner, stripped, '/');
        }
      }
      Success(ref)
  }

  // ---------------------------------------------------------------- listing

  /** One `kernels_list` call: it raised, or it returned a page (possibly `None`). */
  datatype PageResponse = PageRaised | PageReturned(items: Option<seq<Option<Kernel>>>)

  /** `not page_items`: the page that ends the listing. */
  predicate EndsListing(p: PageResponse) {
    p.PageReturned? && (p.items.None? || p.items.value == [])
  }

  function ItemsOf(p: PageResponse): seq<Option<Kernel>> {
    if p.PageReturned? && p.items.Some? then p.items.value else []
  }

  /** What one slot of a page contributes: nothing for `None`, nor for a private kernel unless those are included. */
  function Keep(x: Option<Kernel>, includePrivate: bool): seq<Kernel> {
    if x.Some? && (includePrivate || !x.value.isPrivate) then [x.value] else []
  }

  /** The items of one page that are kept: `None` entries dropped, private ones too unless included. */
  function Visible(items: seq<Option<Kernel>>, includePrivate: bool): (r: seq<Kernel>)
    ensures forall k :: k in r <==> Some(k) in items && (includePrivate || !k.isPrivate)
    decreases |items|
  {
    if items == [] then []
    else
      assert forall x :: x in items <==> x == items[0] || x in items[1..] by {
        assert items == [items[0]] + items[1..];
      }
      Keep(items[0], includePrivate) + Visible(items[1..], includePrivate)
  }

  /** Filtering distributes over concatenation: the kept items stay in page order. */
  lemma {:induction false} VisibleAppend(a: seq<Option<Kernel>>, b: seq<Option<Kernel>>, includePrivate: bool)
    ensures Visible(a + b, includePrivate) == Visible(a, includePrivate) + Visible(b, includePrivate)
    decreases |a|
  {
    if a == [] {
      assert a + b == b;
    } else {
      assert (a + b)[0] == a[0] && (a + b)[1..] == a[1..] + b;
      VisibleAppend(a[1..], b, includePrivate);
      var head := Keep(a[0], includePrivate);
      var x, y := Visible(a[1..], includePrivate), Visible(b, includePrivate);
      assert head + (x + y) == (head + x) + y;
    }
  }

  /** A single item is kept exactly when it is present and, unless private ones are included, public. */
  lemma VisibleOne(x: Option<Kernel>, includePrivate: bool)
    ensures Visible([x], includePrivate) == if x.Some? && (includePrivate || !x.value.isPrivate) then [x.value] else []
  {
    assert [x][1..] == [];
  }

  datatype ListingError = ListingFailed

  /**
   `fetch_notebooks`: page `n + 1` is `pages[n]`; pages past the end of
   `pages` are empty. Stops at the first empty page; a raising page aborts.
   */
  function FetchNotebooks(pages: seq<PageResponse>, includePrivate: bool): (r: Result<seq<Kernel>, ListingError>)
    ensures r.Success? && !includePrivate ==> forall k :: k in r.value ==> !k.isPrivate
    decreases |pages|
  {
    if pages == [] then Success([])
    else if pages[0].PageRaised? then Failure(ListingFailed)
    else if EndsListing(pages[0]) then Success([])
    else
      match FetchNotebooks(pages[1..], includePrivate)
      case Failure(e) => Failure(e)
      case Success(rest) => Success(Visible(ItemsOf(pages[0]), includePrivate) + rest)
  }

  /** The index of the first page that raises or ends the listing, or `|pages|`. */
  function FirstStop(pages: seq<PageResponse>): (n: nat)
    ensures n <= |pages|
    ensures forall i :: 0 <= i < n ==> !pages[i].PageRaised? && !EndsListing(pages[i])
    ensures n < |pages| ==> pages[n].PageRaised? || EndsListing(pages[n])
    decreases |pages|
  {
    if pages == [] || pages[0].PageRaised? || EndsListing(pages[0]) then 0
    else 1 + FirstStop(pages[1..])
  }

  /** The kept items of every page, concatenated in page order. */
  function Concat(pages: seq<PageResponse>, includePrivate: bool): (r: seq<Kernel>)
    decreases |pages|
  {
    if pages == [] then []
    else Visible(ItemsOf(pages[0]), includePrivate) + Concat(pages[1..], includePrivate)
  }

  /**
   The listing fails exactly when a page raises before the first empty page;
   otherwise it is the kept items of the pages before that empty page, in order.
   */
  lemma {:induction false} FetchNotebooksSpec(pages: seq<PageResponse>, includePrivate: bool)
    ensures var stop := FirstStop(pages);
      FetchNotebooks(pages, includePrivate).Failure? <==> stop < |pages| && pages[stop].PageRaised?
    ensures FetchNotebooks(pages, includePrivate).Success? ==>
      FetchNotebooks(pages, includePrivate).value == Concat(pages[..FirstStop(pages)], includePrivate)
    decreases |pages|
  {
    if pages != [] && !pages[0].PageRaised? && !EndsListing(pages[0]) {
      FetchNotebooksSpec(pages[1..], includePrivate);
      assert pages[..FirstStop(pages)][1..] == pages[1..][..FirstStop(pages[1..])];
    }
  }

  /** Pages after the one that ends the listing are never looked at. */
  lemma LaterPagesIgnored(pages: seq<PageResponse>, later: seq<PageResponse>, includePrivate: bool)
    requires FirstStop(pages) < |pages|
    ensures FetchNotebooks(pages[..FirstStop(pages) + 1] + later, includePrivate) == FetchNotebooks(pages, includePrivate)
  {
    var stop := FirstStop(pages);
    var other := pages[..stop + 1] + later;
    assert forall i :: 0 <= i <= stop ==> other[i] == pages[i];
    FirstStopAgrees(pages, other, stop);
    FetchNotebooksSpec(pages, includePrivate);
    FetchNotebooksSpec(other, includePrivate);
    assert other[stop] == pages[stop];
    assert other[..stop] == pages[..stop];
    if FetchNotebooks(pages, includePrivate).Failure? {
      assert FetchNotebooks(pages, includePrivate).error == ListingFailed;
      assert FetchNotebooks(other, includePrivate).error == ListingFailed;
    }
  }

  lemma {:induction false} FirstStopAgrees(a: seq<PageResponse>, b: seq<PageResponse>, n: nat)
    requires n == FirstStop(a) && n < |a| && n < |b|
    requires forall i :: 0 <= i <= n ==> a[i] == b[i]
    ensures FirstStop(b) == n
    decreases n
  {
    if n > 0 {
      FirstStopAgrees(a[1..], b[1..], n - 1);
    }
  }

  // ---------------------------------------------------------------- one notebook

  datatype DownloadError = TargetExists(target: string) | PullFailed(ref: string)

  /**
   `download_notebook`: refuse when the target exists and overwriting is off,
   otherwise pull the kernel and report the target file.
   */
  function DownloadNotebook(k: Kernel, overwrite: bool, existing: set<string>, pulls: string -> bool): (r: Result<string, DownloadError>)
    ensures r == Failure(TargetExists(TargetName(k))) <==> TargetName(k) in existing && !overwrite
    ensures r == Failure(PullFailed(k.ref)) <==> !(TargetName(k) in existing && !overwrite) && !pulls(k.ref)
    ensures r.Success? <==> !(TargetName(k) in existing && !overwrite) && pulls(k.ref)
    ensures r.Success? ==> r.value == TargetName(k)
  {
    var target := TargetName(k);
    if target in existing && !overwrite then Failure(TargetExists(target))
    else if !pulls(k.ref) then Failure(PullFailed(k.ref))
    else Success(target)
  }

  /** What the batch loop does with one listed notebook. */
  datatype Decision = Downloaded | Skipped | Failed

  /**
   One iteration of the batch loop: skip an existing target unless
   overwriting, otherwise call `download_notebook` and record its outcome.
   `existing` holds the target files present when the notebook's turn comes.
   */
  function Decide(k: Kernel, overwrite: bool, existing: set<string>, pulls: string -> bool): (d: Decision)
    ensures d == Skipped <==> TargetName(k) in existing && !overwrite
    ensures d == Failed <==> !(TargetName(k) in existing && !overwrite) && !pulls(k.ref)
    ensures d == Failed ==> DownloadNotebook(k, overwrite, existing, pulls) == Failure(PullFailed(k.ref))
  {
    if TargetName(k) in existing && !overwrite then Skipped
    else
      match DownloadNotebook(k, overwrite, existing, pulls)
      case Failure(_) => Failed
      case Success(_) => Downloaded
  }

  /** The files present after one decision: a successful pull writes the notebook's target. */
  function After(k: Kernel, d: Decision, present: set<string>): set<string> {
    if d == Downloaded then present + {TargetName(k)} else present
  }

  // ---------------------------------------------------------------- the batch

  datatype BatchSummary = BatchSummary(downloaded: nat, skipped: nat, failed: seq<string>)

  /**
   The decision for every listed notebook, in listing order. Each one is
   taken against the files present at the start plus the targets of the
   notebooks downloaded before it.
   */
  function Decisions(ns: seq<Kernel>, overwrite: bool, existing: set<string>, pulls: string -> bool): (ds: seq<Decision>)
    ensures |ds| == |ns|
    decreases |ns|
  {
    if ns == [] then []
    else
      var d := Decide(ns[0], overwrite, existing, pulls);
      [d] + Decisions(ns[1..], overwrite, After(ns[0], d, existing), pulls)
  }

  /** The target files present once the batch has gone through `ns`. */
  function Present(ns: seq<Kernel>, overwrite: bool, existing: set<string>, pulls: string -> bool): set<string>
    decreases |ns|
  {
    if ns == [] then existing
    else Present(ns[1..], overwrite, After(ns[0], Decide(ns[0], overwrite, existing, pulls), existing), pulls)
  }

  /** The references of the notebooks whose decision is `d`, in listing order. */
  function RefsWhere(ns: seq<Kernel>, ds: seq<Decision>, d: Decision): seq<string>
    requires |ns| == |ds|
    decreases |ns|
  {
    if ns == [] then []
    else if ds[0] == d then [ns[0].ref] + RefsWhere(ns[1..], ds[1..], d)
    else RefsWhere(ns[1..], ds[1..], d)
  }

  /** Records one decision in a summary. */
  function Tally(d: Decision, ref: string, s: BatchSummary): BatchSummary {
    match d
    case Downloaded => s.(downloaded := s.downloaded + 1)
    case Skipped => s.(skipped := s.skipped + 1)
    case Failed => s.(failed := [ref] + s.failed)
  }

  /** The summary of the batch loop: counters and the failed references in order. */
  function RunBatch(ns: seq<Kernel>, overwrite: bool, existing: set<string>, pulls: string -> bool): (s: BatchSummary)
    ensures s.downloaded + s.skipped + |s.failed| == |ns|
    decreases |ns|
  {
    if ns == [] then BatchSummary(0, 0, [])
    else
      var d := Decide(ns[0], overwrite, existing, pulls);
      Tally(d, ns[0].ref, RunBatch(ns[1..], overwrite, After(ns[0], d, existing), pulls))
  }

  /** The counters count the notebooks by decision. */
  lemma {:induction false} RunBatchCounts(ns: seq<Kernel>, overwrite: bool, existing: set<string>, pulls: string -> bool)
    ensures var s := RunBatch(ns, overwrite, existing, pulls);
      var ds := Decisions(ns, overwrite, existing, pulls);
      && s.downloaded == multiset(ds)[Downloaded]
      && s.skipped == multiset(ds)[Skipped]
    decreases |ns|
  {
    if ns != [] {
      var d := Decide(ns[0], overwrite, existing, pulls);
      var next := After(ns[0], d, existing);
      RunBatchCounts(ns[1..], overwrite, next, pulls);
      var tail := Decisions(ns[1..], overwrite, next, pulls);
      var rest := RunBatch(ns[1..], overwrite, next, pulls);
      assert RunBatch(ns, overwrite, existing, pulls) == Tally(d, ns[0].ref, rest);
      assert Decisions(ns, overwrite, existing, pulls) == [d] + tail;
      TallyCounts(d, ns[0].ref, rest, tail);
    }
  }

  /** Tallying a decision counts it once more among the decisions. */
  lemma TallyCounts(d: Decision, ref: string, s: BatchSummary, ds: seq<Decision>)
    requires s.downloaded == multiset(ds)[Downloaded] && s.skipped == multiset(ds)[Skipped]
    ensures Tally(d, ref, s).downloaded == multiset([d] + ds)[Downloaded]
    ensures Tally(d, ref, s).skipped == multiset([d] + ds)[Skipped]
  {
    assert multiset([d] + ds) == multiset{d} + multiset(ds);
  }

  /** The failed list holds the references of the failing notebooks, in listing order. */
  lemma {:induction false} RunBatchFailures(ns: seq<Kernel>, overwrite: bool, existing: set<string>, pulls: string -> bool)
    ensures RunBatch(ns, overwrite, existing, pulls).failed == RefsWhere(ns, Decisions(ns, overwrite, existing, pulls), Failed)
    decreases |ns|
  {
    if ns != [] {
      var d := Decide(ns[0], overwrite, existing, pulls);
      var next := After(ns[0], d, existing);
      RunBatchFailures(ns[1..], overwrite, next, pulls);
      var ds := Decisions(ns, overwrite, existing, pulls);
      assert ds[0] == d && ds[1..] == Decisions(ns[1..], overwrite, next, pulls);
    }
  }

  /** Adds up the summaries of two consecutive stretches of the listing. */
  function Combine(a: BatchSummary, b: BatchSummary): BatchSummary {
    BatchSummary(a.downloaded + b.downloaded, a.skipped + b.skipped, a.failed + b.failed)
  }

  /**
   Failures are isolated: the summary of a listing is the sum of the
   summaries of its parts, the second part starting from the files the
   first part left behind, so a later failure cannot undo an earlier item.
   */
  lemma {:induction false} RunBatchSplits(a: seq<Kernel>, b: seq<Kernel>, overwrite: bool, existing: set<string>, pulls: string -> bool)
    ensures var middle := Present(a, overwrite, existing, pulls);
      RunBatch(a + b, overwrite, existing, pulls) ==
        Combine(RunBatch(a, overwrite, existing, pulls), RunBatch(b, overwrite, middle, pulls))
    ensures Present(a + b, overwrite, existing, pulls) == Present(b, overwrite, Present(a, overwrite, existing, pulls), pulls)
    decreases |a|
  {
    if a == [] {
      assert a + b == b;
    } else {
      var ab := a + b;
      assert ab[0] == a[0] && ab[1..] == a[1..] + b;
      var d := Decide(a[0], overwrite, existing, pulls);
      var next := After(a[0], d, existing);
      RunBatchSplits(a[1..], b, overwrite, next, pulls);
      var middle := Present(a[1..], overwrite, next, pulls);
      TallyCombine(d, a[0].ref, RunBatch(a[1..], overwrite, next, pulls), RunBatch(b, overwrite, middle, pulls));
    }
  }

  /** The decisions of a listing are those of its first part followed by those of the rest. */
  lemma {:induction false} DecisionsSplit(a: seq<Kernel>, b: seq<Kernel>, overwrite: bool, existing: set<string>, pulls: string -> bool)
    ensures Decisions(a + b, overwrite, existing, pulls) ==
      Decisions(a, overwrite, existing, pulls) + Decisions(b, overwrite, Present(a, overwrite, existing, pulls), pulls)
    decreases |a|
  {
    if a == [] {
      assert a + b == b;
    } else {
      var ab := a + b;
      assert ab[0] == a[0] && ab[1..] == a[1..] + b;
      var d := Decide(a[0], overwrite, existing, pulls);
      var next := After(a[0], d, existing);
      DecisionsSplit(a[1..], b, overwrite, next, pulls);
      var x := Decisions(a[1..], overwrite, next, pulls);
      var y := Decisions(b, overwrite, Present(a[1..], overwrite, next, pulls), pulls);
      assert [d] + (x + y) == ([d] + x) + y;
    }
  }

  lemma TallyCombine(d: Decision, ref: string, x: BatchSummary, y: BatchSummary)
    ensures Tally(d, ref, Combine(x, y)) == Combine(Tally(d, ref, x), y)
  {
    if d == Failed {
      assert [ref] + (x.failed + y.failed) == ([ref] + x.failed) + y.failed;
    }
  }

  /** The decision for the notebook at index `i` is taken against the files present when its turn comes. */
  lemma DecisionAt(ns: seq<Kernel>, overwrite: bool, existing: set<string>, pulls: string -> bool, i: nat)
    requires i < |ns|
    ensures Decisions(ns, overwrite, existing, pulls)[i] ==
      Decide(ns[i], overwrite, Present(ns[..i], overwrite, existing, pulls), pulls)
    ensures Decisions(ns, overwrite, existing, pulls)[..i] == Decisions(ns[..i], overwrite, existing, pulls)
  {
    assert ns == ns[..i] + ns[i..];
    DecisionsSplit(ns[..i], ns[i..], overwrite, existing, pulls);
    assert ns[i..][0] == ns[i];
  }

  /** Some notebook of `ns` whose decision in `ds` is a download has target `t`. */
  predicate PulledTo(ns: seq<Kernel>, ds: seq<Decision>, t: string)
    requires |ds| == |ns|
  {
    exists j :: 0 <= j < |ns| && ds[j] == Downloaded && TargetName(ns[j]) == t
  }

  /** A download to `t` is either the first notebook's or one among the rest. */
  lemma PulledToCons(ns: seq<Kernel>, ds: seq<Decision>, t: string)
    requires |ds| == |ns| && ns != []
    ensures PulledTo(ns, ds, t) <==>
      (ds[0] == Downloaded && TargetName(ns[0]) == t) || PulledTo(ns[1..], ds[1..], t)
  {
    if PulledTo(ns[1..], ds[1..], t) {
      var j :| 0 <= j < |ns[1..]| && ds[1..][j] == Downloaded && TargetName(ns[1..][j]) == t;
      assert ds[j + 1] == ds[1..][j] && ns[j + 1] == ns[1..][j];
    }
    if PulledTo(ns, ds, t) {
      var j :| 0 <= j < |ns| && ds[j] == Downloaded && TargetName(ns[j]) == t;
      if j > 0 {
        assert ds[1..][j - 1] == ds[j] && ns[1..][j - 1] == ns[j];
      }
    }
  }

  /** The files present after a stretch of the listing are those present before plus the targets it downloaded. */
  lemma {:induction false} PresentHas(ns: seq<Kernel>, overwrite: bool, existing: set<string>, pulls: string -> bool, t: string)
    ensures t in Present(ns, overwrite, existing, pulls) <==>
      t in existing || PulledTo(ns, Decisions(ns, overwrite, existing, pulls), t)
    decreases |ns|
  {
    if ns != [] {
      var ds := Decisions(ns, overwrite, existing, pulls);
      var d := Decide(ns[0], overwrite, existing, pulls);
      var next := After(ns[0], d, existing);
      PresentHas(ns[1..], overwrite, next, pulls, t);
      assert ds[0] == d && ds[1..] == Decisions(ns[1..], overwrite, next, pulls);
      PulledToCons(ns, ds, t);
    }
  }

  /**
   Without `--overwrite` a notebook is skipped exactly when its target was
   on disk at the start or an earlier notebook of the same run was
   downloaded to it: the loop asks whether the target exists afresh for
   every notebook.
   */
  lemma SkippedExactly(ns: seq<Kernel>, overwrite: bool, existing: set<string>, pulls: string -> bool, i: nat)
    requires i < |ns|
    ensures var ds := Decisions(ns, overwrite, existing, pulls);
      ds[i] == Skipped <==>
        !overwrite && (TargetName(ns[i]) in existing || PulledTo(ns[..i], ds[..i], TargetName(ns[i])))
  {
    DecisionAt(ns, overwrite, existing, pulls, i);
    PresentHas(ns[..i], overwrite, existing, pulls, TargetName(ns[i]));
  }

  /** With `--overwrite` nothing is skipped. */
  lemma {:induction false} OverwriteSkipsNothing(ns: seq<Kernel>, existing: set<string>, pulls: string -> bool)
    ensures RunBatch(ns, true, existing, pulls).skipped == 0
    decreases |ns|
  {
    if ns != [] {
      OverwriteSkipsNothing(ns[1..], After(ns[0], Decide(ns[0], true, existing, pulls), existing), pulls);
    }
  }

  /**
   Every failed reference belongs to a listed notebook whose pull failed
   and whose target was not present when its turn came (or overwriting was on).
   */
  lemma FailedAreFailures(ns: seq<Kernel>, overwrite: bool, existing: set<string>, pulls: string -> bool, r: string)
    requires r in RunBatch(ns, overwrite, existing, pulls).failed
    ensures exists i :: (0 <= i < |ns| && ns[i].ref == r && !pulls(r) &&
      !(TargetName(ns[i]) in Present(ns[..i], overwrite, existing, pulls) && !overwrite))
  {
    var ds := Decisions(ns, overwrite, existing, pulls);
    RunBatchFailures(ns, overwrite, existing, pulls);
    var i := RefsWhereHas(ns, ds, Failed, r);
    DecisionAt(ns, overwrite, existing, pulls, i);
  }

  /** A reference in `RefsWhere` comes from a notebook with that decision; returns its index. */
  lemma {:induction false} RefsWhereHas(ns: seq<Kernel>, ds: seq<Decision>, d: Decision, r: string) returns (i: nat)
    requires |ns| == |ds| && r in RefsWhere(ns, ds, d)
    ensures i < |ns| && ns[i].ref == r && ds[i] == d
    decreases |ns|
  {
    if ds[0] == d && ns[0].ref == r {
      i := 0;
    } else {
      var j := RefsWhereHas(ns[1..], ds[1..], d, r);
      i := j + 1;
    }
  }

  /**
   The `for kernel in notebooks` loop of `main`, with the counters and the
   failed list updated in place, item by item in listing order. `present`
   tracks the destination directory: a successful pull adds its target.
   */
  method BatchLoop(ns: seq<Kernel>, overwrite: bool, existing: set<string>, pulls: string -> bool) returns (downloaded: nat, skipped: nat, failed: seq<string>)
    ensures BatchSummary(downloaded, skipped, failed) == RunBatch(ns, overwrite, existing, pulls)
    ensures downloaded + skipped + |failed| == |ns|
  {
    downloaded, skipped, failed := 0, 0, [];
    var present := existing;
    var i := 0;
    while i < |ns|
      invariant 0 <= i <= |ns|
      invariant Combine(BatchSummary(downloaded, skipped, failed), RunBatch(ns[i..], overwrite, present, pulls)) ==
        RunBatch(ns, overwrite, existing, pulls)
    {
      BatchStep(ns, i, overwrite, present, pulls, BatchSummary(downloaded, skipped, failed));
      downloaded, skipped, failed, present := LoopBody(ns[i], overwrite, present, pulls, downloaded, skipped, failed);
      i := i + 1;
    }
    assert failed + [] == failed;
  }

  /**
   One pass of the loop body: skip an existing target unless overwriting,
   otherwise try `download_notebook`, counting a failure or a download.
   */
  method LoopBody(
    k: Kernel, overwrite: bool, present: set<string>, pulls: string -> bool,
    downloaded: nat, skipped: nat, failed: seq<string>)
    returns (downloaded': nat, skipped': nat, failed': seq<string>, present': set<string>)
    ensures var d := Decide(k, overwrite, present, pulls);
      && BatchSummary(downloaded', skipped', failed') == Record(d, k.ref, BatchSummary(downloaded, skipped, failed))
      && present' == After(k, d, present)
  {
    downloaded', skipped', failed', present' := downloaded, skipped, failed, present;
    if TargetName(k) in present && !overwrite {
      skipped' := skipped + 1;
    } else {
      match DownloadNotebook(k, overwrite, present, pulls)
      case Failure(_) =>
        failed' := failed + [k.ref];
      case Success(target) =>
        downloaded' := downloaded + 1;
        present' := present + {target};
    }
  }

  /** Records one decision at the end of a summary, as the loop does. */
  function Record(d: Decision, ref: string, s: BatchSummary): BatchSummary {
    match d
    case Downloaded => s.(downloaded := s.downloaded + 1)
    case Skipped => s.(skipped := s.skipped + 1)
    case Failed => s.(failed := s.failed + [ref])
  }

  /** Moving one notebook from the part still to do to the part done keeps the total. */
  lemma BatchStep(ns: seq<Kernel>, i: nat, overwrite: bool, present: set<string>, pulls: string -> bool, done: BatchSummary)
    requires i < |ns|
    ensures var d := Decide(ns[i], overwrite, present, pulls);
      Combine(done, RunBatch(ns[i..], overwrite, present, pulls)) ==
        Combine(Record(d, ns[i].ref, done), RunBatch(ns[i + 1..], overwrite, After(ns[i], d, present), pulls))
  {
    var d := Decide(ns[i], overwrite, present, pulls);
    var rest := RunBatch(ns[i + 1..], overwrite, After(ns[i], d, present), pulls);
    assert ns[i..][0] == ns[i] && ns[i..][1..] == ns[i + 1..];
    assert RunBatch(ns[i..], overwrite, present, pulls) == Tally(d, ns[i].ref, rest);
    RecordTally(d, ns[i].ref, done, rest);
  }

  /** Recording a decision at the end of the done part is tallying it at the front of the part still to do. */
  lemma RecordTally(d: Decision, ref: string, done: BatchSummary, todo: BatchSummary)
    ensures Combine(Record(d, ref, done), todo) == Combine(done, Tally(d, ref, todo))
  {
    if d == Failed {
      assert (done.failed + [ref]) + todo.failed == done.failed + ([ref] + todo.failed);
    }
  }

  /** The exit code of a finished batch: 1 exactly when some notebook failed. */
  function BatchExitCode(s: BatchSummary): (code: int)
    ensures code == 0 || code == 1
    ensures code == 1 <==> |s.failed| > 0
  {
    if s.failed != [] then 1 else 0
  }

  /**
   Three notebooks with different targets, the second already on disk, the
   third failing to pull: one download, one skip, and only the third
   reported as failed.
   */
  lemma ReconciliationExample(k1: Kernel, k2: Kernel, k3: Kernel, existing: set<string>, pulls: string -> bool)
    requires TargetName(k1) !in existing && pulls(k1.ref)
    requires TargetName(k2) in existing
    requires TargetName(k3) !in existing && TargetName(k3) != TargetName(k1) && !pulls(k3.ref)
    ensures RunBatch([k1, k2, k3], false, existing, pulls) == BatchSummary(1, 1, [k3.ref])
    ensures BatchExitCode(RunBatch([k1, k2, k3], false, existing, pulls)) == 1
  {
    var ns := [k1, k2, k3];
    assert ns[1..] == [k2, k3] && ns[1..][1..] == [k3] && ns[1..][1..][1..] == [];
    var present := existing + {TargetName(k1)};
    assert RunBatch([k3], false, present, pulls) == BatchSummary(0, 0, [k3.ref]);
    assert RunBatch([k2, k3], false, present, pulls) == BatchSummary(0, 1, [k3.ref]);
  }

  /**
   Two listed notebooks with the same target file, such as one kernel
   listed twice: once the first is downloaded the second is skipped,
   whether or not its own pull would succeed, and the run exits with 0.
   */
  lemma SharedTargetExample(k1: Kernel, k2: Kernel, existing: set<string>, pulls: string -> bool)
    requires TargetName(k1) == TargetName(k2)
    requires TargetName(k1) !in existing && pulls(k1.ref)
    ensures RunBatch([k1, k2], false, existing, pulls) == BatchSummary(1, 1, [])
    ensures BatchExitCode(RunBatch([k1, k2], false, existing, pulls)) == 0
  {
    var ns := [k1, k2];
    assert ns[1..] == [k2] && ns[1..][1..] == [];
    assert RunBatch([k2], false, existing + {TargetName(k1)}, pulls) == BatchSummary(0, 1, []);
  }

  // ---------------------------------------------------------------- main

  datatype NotebooksArgs = NotebooksArgs(owner: Option<string>, kernel: Option<string>, includePrivate: bool, overwrite: bool)

  datatype NotebooksOutcome =
    | ConfigRejected(configError: ConfigError)
    | ApiUnavailable                 // `configure_api` raised `SystemExit`
    | KernelRejected
    | SingleSkipped(ref: string)
    | SingleDownloaded(ref: string)
    | SingleFailed(ref: string)
    | ListingAborted
    | NothingListed
    | BatchDone(summary: BatchSummary)

  /** The exit code `main` returns for an outcome. */
  function NotebooksExitCode(o: NotebooksOutcome): (code: int)
    ensures code == 0 || code == 1
    ensures code == 1 <==>
      || o.ConfigRejected? || o.ApiUnavailable? || o.KernelRejected? || o.SingleFailed? || o.ListingAborted?
      || (o.BatchDone? && o.summary.failed != [])
  {
    match o
    case ConfigRejected(_) => 1
    case ApiUnavailable => 1
    case KernelRejected => 1
    case SingleSkipped(_) => 0
    case SingleDownloaded(_) => 0
    case SingleFailed(_) => 1
    case ListingAborted => 1
    case NothingListed => 0
    case BatchDone(s) => BatchExitCode(s)
  }

  const NotebookOwner := "KAGGLE_NOTEBOOK_OWNER"

  /** `args.owner or env.get("KAGGLE_NOTEBOOK_OWNER") or env["KAGGLE_USERNAME"]`. */
  function ResolveOwner(ownerArg: Option<string>, env: Env): (owner: string)
    requires Username in env
    ensures Truthy(ownerArg) ==> owner == ownerArg.value
    ensures !Truthy(ownerArg) && Truthy(Get(env, NotebookOwner)) ==> owner == env[NotebookOwner]
    ensures !Truthy(ownerArg) && !Truthy(Get(env, NotebookOwner)) ==> owner == env[Username]
  {
    Or(Or(ownerArg, Get(env, NotebookOwner)), Some(env[Username])).value
  }

  /** The text after the first `/` of a qualified reference: `kernel_ref.split("/", 1)[1]`. */
  function SlugOf(ref: string): (slug: string)
    requires '/' in ref
    ensures exists owner :: '/' !in owner && ref == owner + "/" + slug
  {
    var parts := SplitFirst(ref, '/').value;
    assert ref == parts.0 + "/" + parts.1;
    parts.1
  }

  /**
   The `--kernel` branch of `main`: the skip check always looks for
   `<slug>.ipynb`, whatever the kernel's language.
   */
  function SingleKernel(owner: string, kernel: string, overwrite: bool, existing: set<string>, pulls: string -> bool): (o: NotebooksOutcome)
    ensures o.KernelRejected? <==> StripSpace(kernel) == []
    ensures o.SingleSkipped? || o.SingleDownloaded? || o.SingleFailed? ==>
      var ref := NormalizeKernelRef(owner, kernel).value;
      && o.ref == ref
      && (o.SingleSkipped? <==> SlugOf(ref) + ".ipynb" in existing && !overwrite)
      && (o.SingleDownloaded? <==> !(SlugOf(ref) + ".ipynb" in existing && !overwrite) && pulls(ref))
    ensures o.KernelRejected? || o.SingleSkipped? || o.SingleDownloaded? || o.SingleFailed?
  {
    match NormalizeKernelRef(owner, kernel)
    case Failure(_) => KernelRejected
    case Success(ref) =>
      if SlugOf(ref) + ".ipynb" in existing && !overwrite then SingleSkipped(ref)
      else if pulls(ref) then SingleDownloaded(ref)
      else SingleFailed(ref)
  }

  /**
   `main` of download_notebooks.py once the configuration is resolved to
   `env`: `apiReady` says whether `configure_api` returns (the Kaggle client
   imports) rather than raising `SystemExit`, `existing` names the files
   already in the destination, `pages` the listing pages, `pulls` whether
   pulling a reference succeeds.
   */
  function NotebooksRun(
    env: Env, args: NotebooksArgs, apiReady: bool,
    existing: set<string>, pages: seq<PageResponse>, pulls: string -> bool): (o: NotebooksOutcome)
    requires Username in env
    ensures !o.ConfigRejected?
    ensures o.ApiUnavailable? <==> !apiReady
    ensures apiReady && Truthy(args.kernel) ==>
      o == SingleKernel(ResolveOwner(args.owner, env), args.kernel.value, args.overwrite, existing, pulls)
    ensures o.ListingAborted? <==> apiReady && !Truthy(args.kernel) && FetchNotebooks(pages, args.includePrivate).Failure?
    ensures o.NothingListed? <==> apiReady && !Truthy(args.kernel) && FetchNotebooks(pages, args.includePrivate) == Success([])
    ensures o.BatchDone? ==>
      var listed := FetchNotebooks(pages, args.includePrivate).value;
      && o.summary == RunBatch(listed, args.overwrite, existing, pulls)
      && o.summary.downloaded + o.summary.skipped + |o.summary.failed| == |listed| > 0
    ensures (apiReady && !Truthy(args.kernel) && FetchNotebooks(pages, args.includePrivate).Success?
             && FetchNotebooks(pages, args.includePrivate).value != []) ==>
      o == BatchDone(RunBatch(FetchNotebooks(pages, args.includePrivate).value, args.overwrite, existing, pulls))
  {
    var owner := ResolveOwner(args.owner, env);
    if !apiReady then ApiUnavailable
    else if Truthy(args.kernel) then SingleKernel(owner, args.kernel.value, args.overwrite, existing, pulls)
    else
      match FetchNotebooks(pages, args.includePrivate)
      case Failure(_) => ListingAborted
      case Success(listed) =>
        if listed == [] then NothingListed
        else BatchDone(RunBatch(listed, args.overwrite, existing, pulls))
  }

  /**
   The batch saves an R kernel as `<slug>.irnb` and skips it when that file
   exists, while the single-kernel path always checks `<slug>.ipynb` and so
   pulls the same kernel again.
   */
  lemma LanguageTargetExample(pulls: string -> bool)
    ensures Decide(Kernel("ann/plot", "plot", Some("R"), false), false, {"plot.irnb"}, pulls) == Skipped
    ensures SingleKernel("ann", "ann/plot", false, {"plot.irnb"}, pulls)
      == (if pulls("ann/plot") then SingleDownloaded("ann/plot") else SingleFailed("ann/plot"))
  {
    RTargetExample();
    QualifiedRefExample();
  }

  lemma RTargetExample()
    ensures TargetName(Kernel("ann/plot", "plot", Some("R"), false)) == "plot.irnb"
  {
    assert Lower("R") == "r";
  }

  lemma QualifiedRefExample()
    ensures NormalizeKernelRef("ann", "ann/plot") == Success("ann/plot")
    ensures SlugOf("ann/plot") == "plot"
  {
    PlotRefStripped();
    PlotRefSplits();
  }

  lemma PlotRefStripped()
    ensures StripSpace("ann/plot") == "ann/plot"
  {
    StripSpaceTrimmed("ann/plot");
  }

  lemma PlotRefSplits()
    ensures SplitFirst("ann/plot", '/') == Some(("ann", "plot"))
  {
    SplitFirstOf("ann", "plot", '/');
    assert "ann" + ['/'] + "plot" == "ann/plot";
  }

  /** `main` of download_notebooks.py: the configuration is resolved first and rejected with exit code 1. */
  function NotebooksMain(
    base: EnvFile, secrets: EnvFile, args: NotebooksArgs, apiReady: bool,
    existing: set<string>, pages: seq<PageResponse>, pulls: string -> bool): (o: NotebooksOutcome)
    ensures o.ConfigRejected? <==> NotebooksConfig(base, secrets).Failure?
    ensures o.ConfigRejected? ==> o.configError == NotebooksConfig(base, secrets).error && NotebooksExitCode(o) == 1
    ensures NotebooksConfig(base, secrets).Success? ==>
      o == NotebooksRun(NotebooksConfig(base, secrets).value, args, apiReady, existing, pages, pulls)
  {
    match NotebooksConfig(base, secrets)
    case Failure(e) => ConfigRejected(e)
    case Success(env) => NotebooksRun(env, args, apiReady, existing, pages, pulls)
  }
}

=== FILE: push.dfy ===
/**
 push_notebook.py: resolve the configuration, check the notebook and the
 slug, settle the title, and build the kernel metadata handed to the
 `kaggle kernels push` command.
 */
module PushNotebook {
  import opened Wrappers
  import opened Text
  import opened Config
  import opened Slug

  /** The kernel-metadata record, one field per key of the JSON object. */
  datatype Metadata = Metadata(
    id: string,
    title: string,
    codeFile: string,
    language: string,
    kernelType: string,
    isPrivate: string,
    enableGpu: string,
    enableTpu: string,
    enableInternet: string,
    keywords: seq<string>,
    datasetSources: seq<string>,
    kernelSources: seq<string>,
    modelSources: seq<string>,
    dockerImage: string,
    competitionSources: seq<string>)

  /** `str(b).lower()`. */
  function BoolText(b: bool): (t: string)
    ensures t == "true" || t == "false"
    ensures t == "true" <==> b
  {
    if b then "true" else "false"
  }

  /** `build_metadata`. */
  function BuildMetadata(
    username: string,
    slug: string,
    title: string,
    codeFile: string,
    competition: Option<string>,
    enableGpu: bool,
    enableInternet: bool,
    isPrivate: bool): (m: Metadata)
    ensures m.id == username + "/" + slug
    ensures '/' !in username ==> SplitFirst(m.id, '/') == Some((username, slug))
    ensures m.title == title && m.codeFile == codeFile
    ensures m.isPrivate == "true" <==> isPrivate
    ensures m.enableGpu == "true" <==> enableGpu
    ensures m.enableInternet == "true" <==> enableInternet
    ensures m.isPrivate in {"true", "false"} && m.enableGpu in {"true", "false"} && m.enableInternet in {"true", "false"}
    ensures m.enableTpu == "false"
    ensures m.language == "python" && m.kernelType == "notebook" && m.dockerImage == "python"
    ensures m.keywords == [] && m.datasetSources == [] && m.kernelSources == [] && m.modelSources == []
    ensures |m.competitionSources| <= 1
    ensures m.competitionSources != [] <==> Truthy(competition)
    ensures m.competitionSources != [] ==> m.competitionSources[0] == competition.value
  {
    var id := username + "/" + slug;
    assert '/' !in username ==> SplitFirst(id, '/') == Some((username, slug)) by {
      if '/' !in username {
        SplitFirstOf(username, slug, '/');
      }
    }
    Metadata(
      id := id,
      title := title,
      codeFile := codeFile,
      language := "python",
      kernelType := "notebook",
      isPrivate := BoolText(isPrivate),
      enableGpu := BoolText(enableGpu),
      enableTpu := "false",
      enableInternet := BoolText(enableInternet),
      keywords := [],
      datasetSources := [],
      kernelSources := [],
      modelSources := [],
      dockerImage := "python",
      competitionSources := if Truthy(competition) then [competition.value] else [])
  }

  /** The notebook file named on the command line: whether it exists, its name and its stem. */
  datatype NotebookFile = NotebookFile(present: bool, name: string, stem: string)

  datatype PushArgs = PushArgs(
    notebook: NotebookFile,
    slug: string,
    title: Option<string>,
    competition: Option<string>,
    enableGpu: bool,
    enableInternet: bool,
    isPrivate: bool)

  datatype PushOutcome =
    | ConfigRejected(configError: ConfigError)
    | NotebookMissing
    | SlugRejected(slugError: SlugError)
    | Pushed(metadata: Metadata, status: int)   // the push command ran with this exit status

  /** The exit code `main` returns: the push command's status, or 1 for every rejection. */
  function PushExitCode(o: PushOutcome): (code: int)
    ensures o.Pushed? ==> code == o.status
    ensures !o.Pushed? ==> code == 1
  {
    match o
    case Pushed(_, status) => status
    case _ => 1
  }

  /**
   `args.title or <stem>.replace("_", " ").title()`: a given non-empty title
   wins; otherwise the title case of the stem with spaces for underscores.
   */
  function RequestedTitle(title: Option<string>, stem: string): (t: string)
    ensures Truthy(title) ==> t == title.value
    ensures !Truthy(title) ==> IsTitleOf(t, ReplaceChar(stem, '_', ' '))
    ensures !Truthy(title) ==> |t| == |stem| && Lower(t) == Lower(ReplaceChar(stem, '_', ' '))
  {
    if Truthy(title) then title.value else TitleWithSpaces(stem, '_')
  }

  /**
   `main` of push_notebook.py. `pushStatus` is the exit status of the
   `kaggle kernels push` command, which is not modelled.
   */
  function PushMain(base: EnvFile, secrets: EnvFile, args: PushArgs, pushStatus: int): (o: PushOutcome)
    ensures o.ConfigRejected? <==> PushConfig(base, secrets).Failure?
    ensures o.ConfigRejected? ==> o.configError == PushConfig(base, secrets).error
    ensures o.NotebookMissing? <==> PushConfig(base, secrets).Success? && !args.notebook.present
    ensures o.SlugRejected? ==> ValidateSlug(args.slug).Failure?
    ensures o.Pushed? <==> PushConfig(base, secrets).Success? && args.notebook.present && ValidateSlug(args.slug).Success?
    ensures o.Pushed? ==>
      var env := PushConfig(base, secrets).value;
      && o.metadata.id == env[Username] + "/" + args.slug
      && Normalize(o.metadata.title) == args.slug
      && o.metadata.codeFile == args.notebook.name
      && (o.metadata.competitionSources != [] <==> Truthy(Or(args.competition, Get(env, Competition))))
      && o.metadata == BuildMetadata(
        env[Username], args.slug, o.metadata.title, args.notebook.name,
        Or(args.competition, Get(env, Competition)), args.enableGpu, args.enableInternet, args.isPrivate)
      && PushExitCode(o) == pushStatus
    ensures o.Pushed? && Normalize(RequestedTitle(args.title, args.notebook.stem)) == args.slug ==>
      o.metadata.title == RequestedTitle(args.title, args.notebook.stem)
    ensures o.Pushed? ==>
      o.metadata.title == EnsureTitleMatchesSlug(RequestedTitle(args.title, args.notebook.stem), args.slug)
    ensures o.SlugRejected? ==> o.slugError == ValidateSlug(args.slug).error
    ensures !o.Pushed? ==> PushExitCode(o) == 1
  {
    match PushConfig(base, secrets)
    case Failure(e) => ConfigRejected(e)
    case Success(env) =>
      var competition := Or(args.competition, Get(env, Competition));
      if !args.notebook.present then NotebookMissing
      else
        match ValidateSlug(args.slug)
        case Failure(e) => SlugRejected(e)
        case Success(_) =>
          var title := EnsureTitleMatchesSlug(RequestedTitle(args.title, args.notebook.stem), args.slug);
          var username := env[Username];
          var metadata := BuildMetadata(
            username, args.slug, title, args.notebook.name, competition,
            args.enableGpu, args.enableInternet, args.isPrivate);
          Pushed(metadata, pushStatus)
  }

  /**
   With no title given, a notebook whose stem already normalises to the slug
   keeps its derived default title.
   */
  lemma DefaultTitleKept(base: EnvFile, secrets: EnvFile, args: PushArgs, pushStatus: int)
    requires PushMain(base, secrets, args, pushStatus).Pushed?
    requires !Truthy(args.title) && Normalize(args.notebook.stem) == args.slug
    ensures PushMain(base, secrets, args, pushStatus).metadata.title == TitleWithSpaces(args.notebook.stem, '_')
  {
    DefaultTitleNormalizes(args.notebook.stem);
  }
}

=== FILE: slug.dfy ===
/**
 Kernel slugs and titles (push_notebook.py). A slug is canonical when it is
 its own normal form: lower-case letters, digits and single inner dashes.
 */
module Slug {
  import opened Wrappers
  import opened Text

  /** The regular-expression class `[a-z0-9]`. */
  predicate IsSlugChar(c: char) { IsLower(c) || IsDigit(c) }

  /** The class `[^a-z0-9]`. */
  predicate NotSlugChar(c: char) { !IsSlugChar(c) }

  predicate IsDash(c: char) { c == '-' }

  /**
   `re.sub(P + "+", "-", s)` where `p` is the class `P`: every maximal run of
   characters satisfying `p` becomes a single dash.
   */
  function ReplaceRuns(s: string, p: char -> bool): (r: string)
    ensures |r| == 0 <==> |s| == 0
    ensures |s| > 0 ==> r[0] == (if p(s[0]) then '-' else s[0])
    decreases |s|
  {
    if s == [] then []
    else if p(s[0]) then "-" + ReplaceRuns(TrimStart(s[1..], p), p)
    else [s[0]] + ReplaceRuns(s[1..], p)
  }

  /**
   When the class contains the dash, the output has a dash wherever a run was
   and otherwise only characters outside the class, never two dashes in a row.
   */
  lemma {:induction false} ReplaceRunsAlphabet(s: string, p: char -> bool)
    requires p('-')
    ensures forall i :: 0 <= i < |ReplaceRuns(s, p)| ==> ReplaceRuns(s, p)[i] == '-' || !p(ReplaceRuns(s, p)[i])
    ensures forall i, j :: 0 <= i < |ReplaceRuns(s, p)| && 0 <= j < |ReplaceRuns(s, p)| && j == i + 1 ==> !(ReplaceRuns(s, p)[i] == '-' && ReplaceRuns(s, p)[j] == '-')
    decreases |s|
  {
    if s != [] {
      if p(s[0]) {
        ReplaceRunsAlphabet(TrimStart(s[1..], p), p);
      } else {
        ReplaceRunsAlphabet(s[1..], p);
      }
    }
  }

  /** Every character of the output is a dash or comes from the input. */
  lemma {:induction false} ReplaceRunsFrom(s: string, p: char -> bool, i: nat)
    requires i < |ReplaceRuns(s, p)|
    ensures ReplaceRuns(s, p)[i] == '-' || ReplaceRuns(s, p)[i] in s
    decreases |s|
  {
    if i > 0 {
      if p(s[0]) {
        var rest := TrimStart(s[1..], p);
        ReplaceRunsFrom(rest, p, i - 1);
        var c := ReplaceRuns(rest, p)[i - 1];
        if c in rest {
          var m :| 0 <= m < |rest| && rest[m] == c;
          assert s[1 + (|s| - 1 - |rest|) + m] == c;
        }
      } else {
        ReplaceRunsFrom(s[1..], p, i - 1);
      }
    }
  }

  /** Every input character outside the class survives into the output. */
  lemma {:induction false} ReplaceRunsKeeps(s: string, p: char -> bool, i: nat)
    requires i < |s| && !p(s[i])
    ensures s[i] in ReplaceRuns(s, p)
    decreases |s|
  {
    if i > 0 {
      if p(s[0]) {
        var rest := TrimStart(s[1..], p);
        var j := i - 1 - (|s| - 1 - |rest|);
        assert s[1..][i - 1] == s[i];
        assert 0 <= j && rest[j] == s[i];
        ReplaceRunsKeeps(rest, p, j);
      } else {
        assert s[1..][i - 1] == s[i];
        ReplaceRunsKeeps(s[1..], p, i - 1);
      }
    }
  }

  /** Characters from `[a-z0-9-]` with no two dashes in a row. */
  predicate SlugAlphabet(s: string) {
    && (forall i :: 0 <= i < |s| ==> IsSlugChar(s[i]) || s[i] == '-')
    && (forall i, j :: 0 <= i < |s| && 0 <= j < |s| && j == i + 1 ==> !(s[i] == '-' && s[j] == '-'))
  }

  /** The shape `validate_slug` accepts: no dash at either end as well. */
  predicate SlugShaped(s: string) {
    SlugAlphabet(s) && (s != [] ==> s[0] != '-' && s[|s| - 1] != '-')
  }

  /** The first substitution of `normalize_slug`, applied to the lower-cased value. */
  function Cleaned(value: string): (r: string)
    ensures SlugAlphabet(r)
  {
    var r := ReplaceRuns(Lower(value), NotSlugChar);
    ReplaceRunsAlphabet(Lower(value), NotSlugChar);
    r
  }

  /**
   `normalize_slug`: lower-case, replace each run of characters outside
   `[a-z0-9]` by one dash, collapse runs of dashes, strip dashes at both ends.
   */
  function Normalize(value: string): (r: string)
    ensures SlugShaped(r)
  {
    var cleaned := Cleaned(value);
    ReplaceRunsFixpoint(cleaned, IsDash);
    StripShaped(cleaned);
    Strip(ReplaceRuns(cleaned, IsDash), IsDash)
  }

  /** The shape `p`-runs produce: the only `p` character is the dash, and never two in a row. */
  predicate RunsCollapsed(s: string, p: char -> bool) {
    && (forall i :: 0 <= i < |s| && p(s[i]) ==> s[i] == '-')
    && (forall i, j :: 0 <= i < |s| && 0 <= j < |s| && j == i + 1 ==> !(p(s[i]) && p(s[j])))
  }

  lemma RunsCollapsedTail(s: string, p: char -> bool)
    requires s != [] && RunsCollapsed(s, p)
    ensures RunsCollapsed(s[1..], p)
    ensures p(s[0]) ==> s[0] == '-' && (|s| > 1 ==> !p(s[1]))
  {
    var rest := s[1..];
    forall i | 0 <= i < |rest| && p(rest[i])
      ensures rest[i] == '-'
    {
      assert rest[i] == s[i + 1];
    }
    forall i, j | 0 <= i < |rest| && 0 <= j < |rest| && j == i + 1
      ensures !(p(rest[i]) && p(rest[j]))
    {
      assert rest[i] == s[i + 1] && rest[j] == s[j + 1];
    }
  }

  /** A string already in the shape `p`-runs produce is left unchanged. */
  lemma {:induction false} ReplaceRunsFixpoint(s: string, p: char -> bool)
    requires RunsCollapsed(s, p)
    ensures ReplaceRuns(s, p) == s
    decreases |s|
  {
    if s != [] {
      var rest := s[1..];
      RunsCollapsedTail(s, p);
      ReplaceRunsFixpoint(rest, p);
      if p(s[0]) {
        if rest != [] {
          assert rest[0] == s[1];
        }
        assert TrimStart(rest, p) == rest;
        assert ReplaceRuns(s, p) == "-" + ReplaceRuns(rest, p);
      } else {
        assert ReplaceRuns(s, p) == [s[0]] + ReplaceRuns(rest, p);
      }
      assert s == [s[0]] + rest;
    }
  }

  /** Stripping dashes from a dash-collapsed string gives the slug shape. */
  lemma StripShaped(s: string)
    requires SlugAlphabet(s)
    ensures SlugShaped(Strip(s, IsDash))
  {
    var t := TrimStart(s, IsDash);
    var u := TrimEnd(t, IsDash);
    SuffixAlphabet(s, |s| - |t|);
    PrefixAlphabet(t, |u|);
    if u != [] {
      assert u[0] == t[0];
    }
  }

  /** Dropping a prefix keeps a string over the slug alphabet. */
  lemma SuffixAlphabet(s: string, n: nat)
    requires SlugAlphabet(s) && n <= |s|
    ensures SlugAlphabet(s[n..])
  {
    var v := s[n..];
    forall i | 0 <= i < |v|
      ensures IsSlugChar(v[i]) || v[i] == '-'
    {
      assert v[i] == s[n + i];
    }
    forall i, j | 0 <= i < |v| && 0 <= j < |v| && j == i + 1
      ensures !(v[i] == '-' && v[j] == '-')
    {
      assert v[i] == s[n + i] && v[j] == s[n + j];
    }
  }

  /** Keeping a prefix keeps a string over the slug alphabet. */
  lemma PrefixAlphabet(s: string, n: nat)
    requires SlugAlphabet(s) && n <= |s|
    ensures SlugAlphabet(s[..n])
  {
    var v := s[..n];
    forall i | 0 <= i < |v|
      ensures IsSlugChar(v[i]) || v[i] == '-'
    {
      assert v[i] == s[i];
    }
    forall i, j | 0 <= i < |v| && 0 <= j < |v| && j == i + 1
      ensures !(v[i] == '-' && v[j] == '-')
    {
      assert v[i] == s[i] && v[j] == s[j];
    }
  }



  /** Trimming keeps every character that is not trimmed away. */
  lemma StripKeeps(s: string, p: char -> bool, m: nat)
    requires m < |s| && !p(s[m])
    ensures s[m] in Strip(s, p)
  {
    var t := TrimStart(s, p);
    var k := |s| - |t|;
    assert m >= k;
    assert t[m - k] == s[m];
    var u := TrimEnd(t, p);
    assert m - k < |u|;
    assert u[m - k] == s[m];
  }

  /** A string is its own normal form exactly when it has the slug shape. */
  lemma NormalizeFixpoint(t: string)
    ensures Normalize(t) == t <==> SlugShaped(t)
  {
    if SlugShaped(t) {
      assert Lower(t) == t;
      ReplaceRunsFixpoint(t, NotSlugChar);
      ReplaceRunsFixpoint(t, IsDash);
      assert TrimStart(t, IsDash) == t;
      assert TrimEnd(t, IsDash) == t;
    }
  }

  /** `normalize_slug` is idempotent. */
  lemma NormalizeIdempotent(s: string)
    ensures Normalize(Normalize(s)) == Normalize(s)
  {
    NormalizeFixpoint(Normalize(s));
  }

  /** The normal form is empty exactly when the value has no ASCII letter or digit. */
  lemma NormalizeEmpty(s: string)
    ensures Normalize(s) == [] <==> forall i :: 0 <= i < |s| ==> NotSlugChar(ToLower(s[i]))
  {
    var low := Lower(s);
    var cleaned := Cleaned(s);
    ReplaceRunsFixpoint(cleaned, IsDash);
    if forall i :: 0 <= i < |s| ==> NotSlugChar(ToLower(s[i])) {
      forall i | 0 <= i < |cleaned|
        ensures cleaned[i] == '-'
      {
        ReplaceRunsFrom(low, NotSlugChar, i);
      }
      var t := TrimStart(cleaned, IsDash);
      assert t == [];
    } else {
      var j :| 0 <= j < |s| && !NotSlugChar(ToLower(s[j]));
      ReplaceRunsKeeps(low, NotSlugChar, j);
      var m :| 0 <= m < |cleaned| && cleaned[m] == low[j];
      StripKeeps(cleaned, IsDash, m);
    }
  }

  /** `a` and `b` agree on which characters are in the class `p`, and agree outside it. */
  predicate SamePattern(a: string, b: string, p: char -> bool) {
    && |a| == |b|
    && (forall i :: 0 <= i < |a| ==> p(a[i]) == p(b[i]))
    && (forall i :: 0 <= i < |a| && !p(a[i]) ==> a[i] == b[i])
  }

  lemma SamePatternSuffix(a: string, b: string, p: char -> bool, n: nat)
    requires SamePattern(a, b, p) && n <= |a|
    ensures SamePattern(a[n..], b[n..], p)
  {
    assert forall i :: 0 <= i < |a| - n ==> a[n..][i] == a[n + i] && b[n..][i] == b[n + i];
  }

  /** Two strings with the same `p`-pattern are rewritten alike. */
  lemma {:induction false} ReplaceRunsCongruent(a: string, b: string, p: char -> bool)
    requires SamePattern(a, b, p)
    ensures ReplaceRuns(a, p) == ReplaceRuns(b, p)
    decreases |a|
  {
    if a != [] {
      SamePatternSuffix(a, b, p, 1);
      if p(a[0]) {
        TrimStartCongruent(a[1..], b[1..], p);
        var ra := TrimStart(a[1..], p);
        var k := |a| - 1 - |ra|;
        SamePatternSuffix(a[1..], b[1..], p, k);
        ReplaceRunsCongruent(ra, TrimStart(b[1..], p), p);
      } else {
        ReplaceRunsCongruent(a[1..], b[1..], p);
      }
    }
  }

  lemma {:induction false} TrimStartCongruent(a: string, b: string, p: char -> bool)
    requires SamePattern(a, b, p)
    ensures |TrimStart(a, p)| == |TrimStart(b, p)|
    decreases |a|
  {
    if a != [] && p(a[0]) {
      SamePatternSuffix(a, b, p, 1);
      TrimStartCongruent(a[1..], b[1..], p);
    }
  }

  /**
   Replacing one character that is not a letter or digit by another such
   character does not change the normal form.
   */
  lemma NormalizeReplaceSeparator(s: string, x: char, y: char)
    requires NotSlugChar(ToLower(x)) && NotSlugChar(ToLower(y))
    ensures Normalize(ReplaceChar(s, x, y)) == Normalize(s)
  {
    var a, b := Lower(ReplaceChar(s, x, y)), Lower(s);
    assert SamePattern(a, b, NotSlugChar);
    ReplaceRunsCongruent(a, b, NotSlugChar);
    assert Cleaned(ReplaceChar(s, x, y)) == Cleaned(s);
  }

  /** Title-casing does not change the normal form. */
  lemma NormalizeTitleCase(s: string)
    ensures Normalize(TitleCase(s)) == Normalize(s)
  {
    LowerOfTitleCase(s);
  }

  datatype SlugError =
    | NoAlphanumeric              // the slug has no letter or digit at all
    | InvalidSlug(suggested: string)

  /** `validate_slug`. */
  function ValidateSlug(slug: string): (r: Result<string, SlugError>)
    ensures r.Success? <==> slug != [] && SlugShaped(slug)
    ensures r.Success? ==> r.value == slug
    ensures r == Failure(NoAlphanumeric) <==> forall i :: 0 <= i < |slug| ==> NotSlugChar(ToLower(slug[i]))
    ensures r.Failure? && r.error.InvalidSlug? ==> r.error.suggested == Normalize(slug) != slug
  {
    var normalized := Normalize(slug);
    NormalizeFixpoint(slug);
    NormalizeEmpty(slug);
    if normalized == [] then Failure(NoAlphanumeric)
    else if normalized != slug then Failure(InvalidSlug(normalized))
    else Success(slug)
  }

  /** The slug suggested by a rejection is itself accepted. */
  lemma SuggestionAccepted(slug: string)
    requires ValidateSlug(slug).Failure? && ValidateSlug(slug).error.InvalidSlug?
    ensures ValidateSlug(ValidateSlug(slug).error.suggested) == Success(ValidateSlug(slug).error.suggested)
  {
    NormalizeEmpty(slug);
  }

  /**
   `s.replace(c, " ").title()`: the fallback title of a slug (`c` is `-`) and
   the default title of a notebook stem (`c` is `_`). The result is the
   title case of `s` with spaces for `c`, so it equals that text up to case.
   */
  function TitleWithSpaces(s: string, c: char): (t: string)
    ensures IsTitleOf(t, ReplaceChar(s, c, ' '))
    ensures |t| == |s| && Lower(t) == Lower(ReplaceChar(s, c, ' '))
  {
    LowerOfTitleCase(ReplaceChar(s, c, ' '));
    TitleCase(ReplaceChar(s, c, ' '))
  }

  /** The fallback title of an accepted slug normalises back to that slug. */
  lemma FallbackTitleMatches(slug: string)
    requires SlugShaped(slug)
    ensures Normalize(TitleWithSpaces(slug, '-')) == slug
  {
    assert NotSlugChar(ToLower('-')) && NotSlugChar(ToLower(' '));
    NormalizeTitleCase(ReplaceChar(slug, '-', ' '));
    NormalizeReplaceSeparator(slug, '-', ' ');
    NormalizeFixpoint(slug);
  }

  /** The default title normalises like the notebook stem it comes from. */
  lemma DefaultTitleNormalizes(stem: string)
    ensures Normalize(TitleWithSpaces(stem, '_')) == Normalize(stem)
  {
    var spaced := ReplaceChar(stem, '_', ' ');
    assert NotSlugChar(ToLower('_')) && NotSlugChar(ToLower(' '));
    NormalizeTitleCase(spaced);
    NormalizeReplaceSeparator(stem, '_', ' ');
    assert Normalize(spaced) == Normalize(stem);
  }

  /**
   `ensure_title_matches_slug`: keep a title that already normalises to the
   slug, otherwise derive one from the slug, so the result matches the slug.
   */
  function EnsureTitleMatchesSlug(title: string, slug: string): (r: string)
    ensures Normalize(title) == slug ==> r == title
    ensures Normalize(title) != slug ==> r == TitleWithSpaces(slug, '-')
    ensures ValidateSlug(slug).Success? ==> Normalize(r) == slug
  {
    if Normalize(title) == slug then title
    else
      if ValidateSlug(slug).Success? then
        FallbackTitleMatches(slug);
        TitleWithSpaces(slug, '-')
      else TitleWithSpaces(slug, '-')
  }

  lemma ExampleShape()
    ensures SlugShaped("my-slug")
  {
    var good := "my-slug";
    assert forall i :: 0 <= i < |good| ==> IsSlugChar(good[i]) || good[i] == '-';
  }

  /** `validate_slug("my-slug")` accepts the slug. */
  lemma ValidateSlugAcceptsExample(slug: string)
    requires slug == "my-slug"
    ensures ValidateSlug(slug) == Success(slug)
  {
    ExampleShape();
  }

  lemma LowerExample(s: string)
    requires s == "My Slug"
    ensures Lower(s) == "my slug"
  {
    var low := "my slug";
    forall i | 0 <= i < 7
      ensures Lower(s)[i] == low[i]
    {
    }
  }

  lemma DashExample(low: string)
    requires low == "my slug"
    ensures ReplaceChar(low, ' ', '-') == "my-slug"
  {
    var good := "my-slug";
    forall i | 0 <= i < 7
      ensures ReplaceChar(low, ' ', '-')[i] == good[i]
    {
    }
  }

  /** `validate_slug("My Slug")` fails and suggests `my-slug`. */
  lemma ValidateSlugRejectsExample(slug: string)
    requires slug == "My Slug"
    ensures ValidateSlug(slug) == Failure(InvalidSlug("my-slug"))
  {
    var good := "my-slug";
    ExampleShape();
    NormalizeFixpoint(good);
    LowerExample(slug);
    var low := Lower(slug);
    DashExample(low);
    assert NotSlugChar(ToLower(' ')) && NotSlugChar(ToLower('-'));
    NormalizeReplaceSeparator(low, ' ', '-');
    assert Lower(low) == low;
    assert Cleaned(low) == Cleaned(slug);
    assert Normalize(slug) == good;
  }
}

=== FILE: text.dfy ===
/**
 The Python `str` operations the scripts rely on, stated over `seq<char>`.
 Case mapping covers the ASCII letters only; every other character is left
 as it is. Whitespace is the set of characters for which `str.isspace()` holds.
 */
module Text {
  import opened Wrappers

  predicate IsUpper(c: char) { 'A' <= c <= 'Z' }
  predicate IsLower(c: char) { 'a' <= c <= 'z' }
  predicate IsDigit(c: char) { '0' <= c <= '9' }
  predicate IsLetter(c: char) { IsUpper(c) || IsLower(c) }

  function ToLower(c: char): char {
    if IsUpper(c) then (c as int + 32) as char else c
  }

  function ToUpper(c: char): char {
    if IsLower(c) then (c as int - 32) as char else c
  }

  /** `str.lower()`: every upper-case letter becomes lower-case and nothing else changes. */
  function Lower(s: string): string
  {
    seq(|s|, i requires 0 <= i < |s| => ToLower(s[i]))
  }

  /** Lower-casing keeps the length, leaves no upper-case letter, changes only upper-case letters, and is idempotent. */
  lemma LowerSpec(s: string)
    ensures |Lower(s)| == |s|
    ensures forall i :: 0 <= i < |s| ==> !IsUpper(Lower(s)[i]) && (Lower(s)[i] != s[i] ==> IsUpper(s[i]))
    ensures Lower(Lower(s)) == Lower(s)
  {
    forall i | 0 <= i < |s|
      ensures Lower(Lower(s))[i] == Lower(s)[i]
    {
      CaseRoundTrip(s[i]);
    }
  }

  /** `str.replace(a, b)` for single characters. */
  function ReplaceChar(s: string, a: char, b: char): string {
    seq(|s|, i requires 0 <= i < |s| => if s[i] == a then b else s[i])
  }

  /**
   `str.title()`: a letter is upper-cased when it starts the string or follows
   a non-letter, and lower-cased otherwise; other characters are kept.
   `prevCased` says whether the character before `s` was a letter.
   */
  function TitleFrom(s: string, prevCased: bool): (r: string)
    ensures |r| == |s|
    ensures forall i :: 0 <= i < |s| ==>
      r[i] == (if (if i == 0 then prevCased else IsLetter(s[i - 1])) then ToLower(s[i]) else ToUpper(s[i]))
    decreases |s|
  {
    if s == [] then []
    else [if prevCased then ToLower(s[0]) else ToUpper(s[0])] + TitleFrom(s[1..], IsLetter(s[0]))
  }

  /**
   `t` is `str.title()` of `s`: a letter is upper-cased at the start or after
   a non-letter and lower-cased after a letter; other characters are kept.
   */
  predicate IsTitleOf(t: string, s: string) {
    |t| == |s| &&
    forall i :: 0 <= i < |s| ==>
      t[i] == (if i > 0 && IsLetter(s[i - 1]) then ToLower(s[i]) else ToUpper(s[i]))
  }

  function TitleCase(s: string): (t: string)
    ensures IsTitleOf(t, s)
  {
    TitleFrom(s, false)
  }

  /** Title-casing changes only the case of letters, so lower-casing undoes it. */
  lemma LowerOfTitleCase(s: string)
    ensures Lower(TitleCase(s)) == Lower(s)
  {
    var t := TitleFrom(s, false);
    forall i | 0 <= i < |s|
      ensures ToLower(t[i]) == ToLower(s[i])
    {
      assert t[i] == (if (if i == 0 then false else IsLetter(s[i - 1])) then ToLower(s[i]) else ToUpper(s[i]));
      CaseRoundTrip(s[i]);
    }
  }

  lemma CaseRoundTrip(c: char)
    ensures ToLower(ToUpper(c)) == ToLower(c)
    ensures ToLower(ToLower(c)) == ToLower(c)
  {
    if IsLower(c) {
      assert ToUpper(c) as int == c as int - 32;
    }
  }

  /** Characters for which Python's `str.isspace()` holds. */
  predicate IsSpace(c: char) {
    || c == ' '
    || '\t' <= c <= '\r'
    || '\U{1C}' <= c <= '\U{1F}'
    || c == '\U{85}'
    || c == '\U{A0}'
    || c == '\U{1680}'
    || '\U{2000}' <= c <= '\U{200A}'
    || c == '\U{2028}'
    || c == '\U{2029}'
    || c == '\U{202F}'
    || c == '\U{205F}'
    || c == '\U{3000}'
  }

  /** Drops the leading characters that satisfy `p`. */
  function TrimStart(s: string, p: char -> bool): (r: string)
    ensures |r| <= |s| && r == s[|s| - |r|..]
    ensures forall i :: 0 <= i < |s| - |r| ==> p(s[i])
    ensures r == [] || !p(r[0])
    decreases |s|
  {
    if s == [] || !p(s[0]) then s else TrimStart(s[1..], p)
  }

  /** Drops the trailing characters that satisfy `p`. */
  function TrimEnd(s: string, p: char -> bool): (r: string)
    ensures |r| <= |s| && r == s[..|r|]
    ensures forall i :: |r| <= i < |s| ==> p(s[i])
    ensures r == [] || !p(r[|r| - 1])
    decreases |s|
  {
    if s == [] || !p(s[|s| - 1]) then s else TrimEnd(s[..|s| - 1], p)
  }

  /** `str.strip(chars)` where `p` says which characters are stripped. */
  function Strip(s: string, p: char -> bool): string {
    TrimEnd(TrimStart(s, p), p)
  }

  /** `str.strip()` with no argument. */
  function StripSpace(s: string): string {
    Strip(s, IsSpace)
  }

  /** No whitespace at either end: the strings `str.strip()` leaves alone. */
  predicate Trimmed(s: string) {
    s == [] || (!IsSpace(s[0]) && !IsSpace(s[|s| - 1]))
  }

  /** `StripSpace` produces exactly the trimmed strings, and fixes each of them. */
  lemma StripSpaceTrimmed(s: string)
    ensures Trimmed(StripSpace(s))
    ensures Trimmed(s) ==> StripSpace(s) == s
  {
    var t := TrimStart(s, IsSpace);
    var r := TrimEnd(t, IsSpace);
    if r != [] {
      assert r[0] == t[0];
    }
  }

  /** Inverse of `Split`: the parts with `sep` between neighbours. */
  function Join(parts: seq<string>, sep: char): string
    decreases |parts|
  {
    if parts == [] then []
    else if |parts| == 1 then parts[0]
    else parts[0] + [sep] + Join(parts[1..], sep)
  }

  /** `str.split(sep)` for a one-character separator. */
  function Split(s: string, sep: char): (parts: seq<string>)
    ensures |parts| >= 1
    ensures forall i :: 0 <= i < |parts| ==> sep !in parts[i]
    ensures Join(parts, sep) == s
    decreases |s|
  {
    if s == [] then [[]]
    else
      var rest := Split(s[1..], sep);
      if s[0] == sep then
        assert ([[]] + rest)[1..] == rest;
        [[]] + rest
      else
        var head := [s[0]] + rest[0];
        assert ([head] + rest[1..])[1..] == rest[1..];
        [head] + rest[1..]
  }

  /** A string without the separator is one part. */
  lemma SplitNoSeparator(s: string, sep: char)
    requires sep !in s
    ensures Split(s, sep) == [s]
  {
  }

  /** The first separator of `a + [sep] + b` splits off exactly `a`. */
  lemma {:induction false} SplitAfterPart(a: string, b: string, sep: char)
    requires sep !in a
    ensures Split(a + [sep] + b, sep) == [a] + Split(b, sep)
    decreases |a|
  {
    if a == [] {
      assert (a + [sep] + b)[1..] == b;
    } else {
      assert (a + [sep] + b)[1..] == a[1..] + [sep] + b;
      SplitAfterPart(a[1..], b, sep);
      assert [a[0]] + a[1..] == a;
    }
  }

  /** `Split` inverts `Join` on parts that do not contain the separator. */
  lemma {:induction false} SplitJoin(parts: seq<string>, sep: char)
    requires |parts| >= 1
    requires forall i :: 0 <= i < |parts| ==> sep !in parts[i]
    ensures Split(Join(parts, sep), sep) == parts
    decreases |parts|
  {
    if |parts| == 1 {
      SplitNoSeparator(parts[0], sep);
    } else {
      SplitJoin(parts[1..], sep);
      SplitAfterPart(parts[0], Join(parts[1..], sep), sep);
      assert [parts[0]] + parts[1..] == parts;
    }
  }

  /** `s.split(sep, 1)`: the text before the first `sep` and the text after it. */
  function SplitFirst(s: string, sep: char): (r: Option<(string, string)>)
    ensures r.None? <==> sep !in s
    ensures r.Some? ==> sep !in r.value.0 && r.value.0 + [sep] + r.value.1 == s
    decreases |s|
  {
    if s == [] then None
    else if s[0] == sep then Some(([], s[1..]))
    else
      match SplitFirst(s[1..], sep)
      case None => None
      case Some((left, right)) => Some(([s[0]] + left, right))
  }

  /** The split at the first separator is unique. */
  lemma {:induction false} SplitFirstOf(a: string, b: string, sep: char)
    requires sep !in a
    ensures SplitFirst(a + [sep] + b, sep) == Some((a, b))
    decreases |a|
  {
    if a == [] {
      assert (a + [sep] + b)[1..] == b;
    } else {
      assert (a + [sep] + b)[1..] == a[1..] + [sep] + b;
      SplitFirstOf(a[1..], b, sep);
      assert [a[0]] + a[1..] == a;
    }
  }

  /** `s.endswith(suffix)`. */
  predicate EndsWith(s: string, suffix: string) {
    |suffix| <= |s| && s[|s| - |suffix|..] == suffix
  }

  /** `s.endswith(suffix)` holds exactly when `s` is some string followed by `suffix`. */
  lemma EndsWithSpec(s: string, t: string, suffix: string)
    ensures s == t + suffix ==> EndsWith(s, suffix)
    ensures EndsWith(s, suffix) && t == s[..|s| - |suffix|] ==> s == t + suffix
  {
    if s == t + suffix {
      assert s[|s| - |suffix|..] == suffix;
    }
  }

  /** Python's `<` on strings: code-point lexicographic order. */
  predicate Less(a: string, b: string)
    decreases |a|
  {
    if a == [] then b != []
    else if b == [] then false
    else if a[0] != b[0] then a[0] < b[0]
    else Less(a[1..], b[1..])
  }

  lemma {:induction false} LessIrreflexive(a: string)
    ensures !Less(a, a)
    decreases |a|
  {
    if a != [] {
      LessIrreflexive(a[1..]);
    }
  }

  lemma {:induction false} LessAsymmetric(a: string, b: string)
    ensures !(Less(a, b) && Less(b, a))
    decreases |a|
  {
    if a != [] && b != [] && a[0] == b[0] {
      LessAsymmetric(a[1..], b[1..]);
    }
  }

  /** Distinct strings are ordered one way or the other, so `Less` is a strict total order. */
  lemma {:induction false} LessTotal(a: string, b: string)
    ensures a != b ==> Less(a, b) || Less(b, a)
    decreases |a|
  {
    if a != [] && b != [] && a[0] == b[0] {
      assert a == [a[0]] + a[1..] && b == [b[0]] + b[1..];
      LessTotal(a[1..], b[1..]);
    }
  }

  lemma {:induction false} LessTransitive(a: string, b: string, c: string)
    ensures Less(a, b) && Less(b, c) ==> Less(a, c)
    decreases |a|
  {
    if a != [] && b != [] && c != [] && a[0] == b[0] == c[0] {
      LessTransitive(a[1..], b[1..], c[1..]);
    }
  }

  /** A common prefix does not change the order. */
  lemma {:induction false} LessUnderPrefix(p: string, a: string, b: string)
    requires Less(a, b)
    ensures Less(p + a, p + b)
    decreases |p|
  {
    if p != [] {
      assert (p + a)[0] == p[0] == (p + b)[0];
      assert (p + a)[1..] == p[1..] + a;
      assert (p + b)[1..] == p[1..] + b;
      LessUnderPrefix(p[1..], a, b);
    } else {
      assert p + a == a && p + b == b;
    }
  }

  /** Ascending without repetition: the shape of `sorted(some_set)`. */
  predicate StrictlySorted(s: seq<string>) {
    forall i, j :: 0 <= i < j < |s| ==> Less(s[i], s[j])
  }

  /**
   Two strictly sorted listings of the same strings are the same listing, so a
   strictly sorted sequence with the elements of a set is `sorted(that_set)`.
   */
  lemma {:induction false} SortedListingUnique(a: seq<string>, b: seq<string>)
    requires StrictlySorted(a) && StrictlySorted(b)
    requires forall x :: x in a <==> x in b
    ensures a == b
    decreases |a|
  {
    assert a != [] ==> a[0] in b;
    assert b != [] ==> b[0] in a;
    if a != [] {
      var i :| 0 <= i < |a| && a[i] == b[0];
      var j :| 0 <= j < |b| && b[j] == a[0];
      LessAsymmetric(a[0], b[0]);
      assert a[0] == b[0];
      LessIrreflexive(a[0]);
      forall x
        ensures x in a[1..] <==> x in b[1..]
      {
        if x in a[1..] {
          var k :| 1 <= k < |a| && a[k] == x;
          assert Less(a[0], a[k]);
          assert x in b && x != b[0];
          var m :| 0 <= m < |b| && b[m] == x;
          assert b[1..][m - 1] == x;
        }
        if x in b[1..] {
          var k :| 1 <= k < |b| && b[k] == x;
          assert Less(b[0], b[k]);
          assert x in a && x != a[0];
          var m :| 0 <= m < |a| && a[m] == x;
          assert a[1..][m - 1] == x;
        }
      }
      SortedListingUnique(a[1..], b[1..]);
      assert a == [a[0]] + a[1..] && b == [b[0]] + b[1..];
    }
  }
}

=== FILE: wrappers.dfy ===
/** Optional values, results with an error, and Python's truthiness of optional strings. */
module Wrappers {

  /** Python's `None` or a value. */
  datatype Option<T> = None | Some(value: T) {

    /** The value, or `default` when there is none. */
    function GetOr(default: T): T {
      match this
      case Some(v) => v
      case None => default
    }
  }

  /** A successful value, or the exception the Python code would raise. */
  datatype Result<T, E> = Success(value: T) | Failure(error: E)

  /** Python truthiness of an optional string: `None` and `""` are false. */
  predicate Truthy(o: Option<string>) {
    o.Some? && o.value != ""
  }

  /** Python's `a or b` on optional strings: `a` when it is truthy, else `b`. */
  function Or(a: Option<string>, b: Option<string>): Option<string> {
    if Truthy(a) then a else b
  }

  /** Python's `d.get(k)`. */
  function Get(d: map<string, string>, k: string): Option<string> {
    if k in d then Some(d[k]) else None
  }
}
